=== FILE: README.md ===
# Auto Media Rename worker — a Dafny model

This project models the background worker of Auto Media Rename (`Worker.java`). It scans a user-chosen document tree and selects recently modified files whose names match configured rules. JPEGs are recompressed when the result is small enough. The file is then renamed to `prefix + name`, and a recompressed JPEG is swapped in under that name by a backup-protected sequence of renames. The model covers five parts:

- `Selection` — the per-child decision of the scan (directory, too old, too recent, reserved suffix, first matching rule).
- `Walker` — the breadth-first scan over an explicit worklist of directories (`traverseDirectoryEntries`), returning the processing calls it makes and their count.
- `DocumentStore`, `Recompression`, `Commit` — `processFile` and the keep/discard decision of `compressJpegFile`, on a directory modelled as `map<string, Bytes>`, with every store call able to fail.
- `Watermark`, `Run` — the time window of `doWork` and the update of the persisted lower bound.
- `FileUtil` — the string helpers that split a document id on `:` (with Java `String.split` semantics) and join a volume directory with a document path.

Inputs the worker gets from Android are parameters. These are the document tree (a `Walker.Node` snapshot), the directory contents, the two clock readings, the codec (`Bytes -> Encoding`), the volume table (`map<string, string>`), and a `Faults` record per file that says which store calls fail.

Three behaviours of the code are easy to misread; the model follows the code:

- The time window is inclusive at both ends.
- An image the decoder cannot read is not a graceful fallback. `BitmapFactory` returns null, the following `compress` call throws, and the exception ends the run before the lower bound is saved (`Compression.Crash`, `FileOutcome.Crashed`, `RunResult.Failure`). Files processed before it stay processed.
- A failing second rename of the swap is only logged. It is not reported as a distinct outcome.

## Model

| member | source | states |
|---|---|---|
| FileUtil.DropTrailingEmptySpec | app/src/main/java/app/adrienverge/automediarename/Worker.java:444 | the split result is a prefix of the fields whose last element is non-empty, and everything dropped is empty |
| FileUtil.JavaSplitFields | app/src/main/java/app/adrienverge/automediarename/Worker.java:444 | `split(":")` returns the id itself when it has no colon; otherwise the colon-separated fields up to the last non-empty one, dropping only empty fields; no returned field holds a colon |
| FileUtil.FieldsJoinRoundTrip | app/src/main/java/app/adrienverge/automediarename/Worker.java:444 | joining the colon-separated fields with `:` gives back the document id |
| FileUtil.FieldsHaveNoColon | app/src/main/java/app/adrienverge/automediarename/Worker.java:444 | no field of the split contains the separator |
| FileUtil.NonEmptyFieldIffNonColon | app/src/main/java/app/adrienverge/automediarename/Worker.java:444 | some field is non-empty exactly when the id holds a character other than `:` |
| FileUtil.SplitLengthAtLeast | app/src/main/java/app/adrienverge/automediarename/Worker.java:444 | after dropping trailing empty fields, more than `n` fields remain exactly when a non-empty field sits at index `n` or later |
| FileUtil.SplitEmptyIffOnlyColons | app/src/main/java/app/adrienverge/automediarename/Worker.java:444-446 | `split(":")` is empty exactly when the id is non-empty and made only of colons (the empty id splits into one empty field) |
| FileUtil.SplitFirstField | app/src/main/java/app/adrienverge/automediarename/Worker.java:444-445 | field 0 of a non-empty split is the text before the first colon |
| FileUtil.SplitSecondField | app/src/main/java/app/adrienverge/automediarename/Worker.java:451-452 | a field 1 exists exactly when something other than colons follows the first colon, and it is the text from there up to the next colon or the end |
| FileUtil.VolumeId | app/src/main/java/app/adrienverge/automediarename/Worker.java:442-447 | the volume id is null exactly for a non-empty all-colon id, and otherwise the text before the first colon |
| FileUtil.DocumentPath | app/src/main/java/app/adrienverge/automediarename/Worker.java:449-454 | the document path is the text between the first colon and the next colon (or the end) when non-colon text follows the first colon, else `/` |
| FileUtil.StripTrailingSeparator | app/src/main/java/app/adrienverge/automediarename/Worker.java:406-407 | exactly one trailing `/` is removed when present, nothing otherwise |
| FileUtil.JoinPath | app/src/main/java/app/adrienverge/automediarename/Worker.java:406-419 | the result starts with the stripped volume path; it is the volume path alone when the stripped document path is empty; otherwise the character at the seam is `/`, followed by the document path minus one leading `/` (further slashes on either side stay) |
| FileUtil.FullDocIdPath | app/src/main/java/app/adrienverge/automediarename/Worker.java:401-420 | a null URI gives null, an unknown volume gives `/`, and a known volume gives the join of its directory and the document path |
| FileUtil.FullPathOfVolumeAndRelativePath | app/src/main/java/app/adrienverge/automediarename/Worker.java:401-454 | for a registered volume `vol` at `dir` and a plain relative path `p`, the id `vol:p` resolves to `dir/p` |
| Selection.FirstMatch | app/src/main/java/app/adrienverge/automediarename/Worker.java:185-195 | the chosen rule matches and no earlier rule does; none is chosen only when no rule matches |
| Selection.Classify | app/src/main/java/app/adrienverge/automediarename/Worker.java:174-196 | directories are enqueued whatever their time or name; a file is selected iff `min <= lastModified <= max`, its name has neither reserved suffix, and some rule matches; the rule applied is then the first match and the new name is `prefix + name` |
| Selection.OwnArtifactsNeverSelected | app/src/main/java/app/adrienverge/automediarename/Worker.java:181-183 | names of the form `name + temp suffix` or `name + backup suffix` are never selected |
| Walker.SubDirectories | app/src/main/java/app/adrienverge/automediarename/Worker.java:174-176 | a node is kept exactly when it is a child with the directory MIME type |
| Walker.WorklistDrainsFront | app/src/main/java/app/adrienverge/automediarename/Worker.java:151-176 | draining the front of the FIFO worklist lists those directories first and queues their sub-directories behind what was already waiting |
| Walker.WorklistIsLevelOrder | app/src/main/java/app/adrienverge/automediarename/Worker.java:148-176 | the order in which the worklist lists directories is level order, i.e. breadth first |
| Walker.LevelOrderClosed | app/src/main/java/app/adrienverge/automediarename/Worker.java:174-176 | every directory child of a listed directory is itself listed |
| Walker.ScanChildren | app/src/main/java/app/adrienverge/automediarename/Worker.java:169-196 | every call made for a directory's children names that directory, is for the entry of one of its children, and is a selection under `Classify` with its rule and new name; there are no more calls than children |
| Walker.ScanChildrenFollowsListing | app/src/main/java/app/adrienverge/automediarename/Worker.java:169-196 | there is exactly one call per selected child, in listing order: the `k`-th call is for the `k`-th selected child, so the count rises by one per matched file |
| Walker.ScanChildrenComplete | app/src/main/java/app/adrienverge/automediarename/Worker.java:177-195 | a row gets a processing call exactly when it is a child of the directory and it is selected |
| Walker.ListDirectory | app/src/main/java/app/adrienverge/automediarename/Worker.java:168-197 | one pass over a listing collects exactly the sub-directories and the calls of the selected files, in listing order |
| Walker.Walk | app/src/main/java/app/adrienverge/automediarename/Worker.java:141-212 | the calls are the selections of the directories in level order from the root, and the returned count equals their number |
| DocumentStore.Rename | app/src/main/java/app/adrienverge/automediarename/Worker.java:276-278 | a rename fails iff the source is missing or the provider errs; on success the bytes move to the target, or to a fresh name if the target is taken; the source name is gone unless source and target coincide, and nothing else changes |
| DocumentStore.Delete | app/src/main/java/app/adrienverge/automediarename/Worker.java:279-281 | a delete removes exactly the named entry, or fails and changes nothing |
| DocumentStore.CreateAndWrite | app/src/main/java/app/adrienverge/automediarename/Worker.java:227-231 | the temporary document is created under a free name; it holds the bytes when the write succeeds and at most a prefix of them when the write fails |
| Recompression.KeepIffRatioBelowThreshold | app/src/main/java/app/adrienverge/automediarename/Worker.java:330-332 | the bytes are kept iff `compressed / original < threshold` strictly, and an empty original is never replaced |
| Recompression.RatioBoundary | app/src/main/java/app/adrienverge/automediarename/Worker.java:332-341 | at threshold 0.8, a result of exactly 80% is discarded and one of 79% is kept |
| Recompression.CompressJpeg | app/src/main/java/app/adrienverge/automediarename/Worker.java:295-366 | a candidate exists iff the original is readable, re-encodes, and passes the ratio test; an undecodable image throws; I/O errors give null |
| Commit.RenameFile | app/src/main/java/app/adrienverge/automediarename/Worker.java:285-292 | nothing changes when the name is unchanged, the file is missing, or the rename fails; otherwise the original's entry moves to `newName` when that is free, or to another free name, its old name is gone, and nothing else changes |
| Commit.SwapIn | app/src/main/java/app/adrienverge/automediarename/Worker.java:274-284 | a failing step ends the swap and later steps are not attempted; step 1 fails iff the original is missing or the rename fails, and otherwise moves its bytes to `name + BackupSuffix`, or to a free name extending it when that is taken; step 2 moves the temporary document's bytes to `newName` (or a free name if taken), and the temporary name is gone unless it is `newName`; step 3 runs only when backups are not kept and removes just the backup; every step leaves all other entries alone |
| Commit.SwapKeepsOriginalReachable | app/src/main/java/app/adrienverge/automediarename/Worker.java:267-284 | in every intermediate state the original's bytes are under its name or the backup name, until the candidate holds its committed name, which is `newName` unless that was taken |
| Commit.ProcessFile | app/src/main/java/app/adrienverge/automediarename/Worker.java:214-293 | as written: only an undecodable JPEG throws; without a kept recompression, or when the temporary document cannot be created, the file is plainly renamed; once the temporary document exists the swap runs, even when the write failed |
| Commit.ProcessFileSafe | app/src/main/java/app/adrienverge/automediarename/Worker.java:214-293 | corrected: same crash, plain-rename and create-failure behaviour; after a failed write it falls back to the plain rename, next to the incomplete temporary document; after a complete write it swaps, exactly as the code as written does |
| Commit.RenameFilePreserves | app/src/main/java/app/adrienverge/automediarename/Worker.java:285-292 | after a plain rename the original's bytes sit under its own name or under a name that did not exist before |
| Commit.ProcessFileSafeNeverLosesContent | app/src/main/java/app/adrienverge/automediarename/Worker.java:214-293 | whatever fails, the corrected processing leaves the original's bytes, or a kept recompression of them, under the file's own name or a name it created; another file with equal bytes does not count |
| Commit.ProcessFileLeavesOthers | app/src/main/java/app/adrienverge/automediarename/Worker.java:214-293 | processing one file as written leaves every other file that was in its directory under its own name with its bytes, whichever store calls fail |
| Commit.ProcessFileSafeLeavesOthers | app/src/main/java/app/adrienverge/automediarename/Worker.java:214-293 | the same for the corrected processing, including its plain-rename fallback after a failed write |
| Commit.WriteFailureLosesOriginal | app/src/main/java/app/adrienverge/automediarename/Worker.java:227-232 | as written, for `a.jpg` holding 4 bytes, a 1-byte recompression at threshold 1/2, backups not kept and the write failing before any byte, the directory ends up holding only an empty `x_a.jpg`, and the file is not preserved |
| Commit.EmptyWriteReplacesOriginal | app/src/main/java/app/adrienverge/automediarename/Worker.java:227-232 | as written, whenever a kept recompression's temporary document is created but receives no byte, backups are not kept and the temporary, backup and new names are free, the result is the directory without the original and with an empty document under the new name |
| Commit.EmptyWriteLosesContent | app/src/main/java/app/adrienverge/automediarename/Worker.java:227-232 | in that situation the file is lost whenever its recompression is not empty: neither its bytes nor the recompression remain under its name or a name the processing created |
| Commit.ProcessFileNewNames | app/src/main/java/app/adrienverge/automediarename/Worker.java:224-282 | when the temporary, backup and new names are free, every name the processing adds to the directory is the new name, `name + TempSuffix` or `name + BackupSuffix`, whichever store calls fail |
| Commit.LeftoversNeverSelected | app/src/main/java/app/adrienverge/automediarename/Worker.java:180-183 | any name the processing adds other than the new name fails the reserved-suffix guard of the scan, so a later run never selects it |
| Watermark.MaximumTimestamp | app/src/main/java/app/adrienverge/automediarename/Worker.java:92-95 | the window's upper bound lies exactly `lag` before the clock, strictly in the past |
| Watermark.NextMinimum | app/src/main/java/app/adrienverge/automediarename/Worker.java:106-111 | the new lower bound is one of `now - day` and the old bound, and it is at least both |
| Watermark.SuccessiveRuns | app/src/main/java/app/adrienverge/automediarename/Worker.java:106-111 | over successive runs the bound never decreases, and a later run subsumes an earlier one |
| Watermark.TooRecentIsNotLost | app/src/main/java/app/adrienverge/automediarename/Worker.java:89-111 | a file skipped as too recent is not below the next run's lower bound, when the run lasted at most a day minus the lag |
| Run.StoppedAtThrowingCall | app/src/main/java/app/adrienverge/automediarename/Worker.java:185-193 | a stop is at one of the calls, and that call throws on the contents its directory has once the calls before it are processed |
| Run.UntouchedDirectoriesKept | app/src/main/java/app/adrienverge/automediarename/Worker.java:185-193 | a directory that no call names keeps its contents, whether or not the run stops |
| Run.StoppedPrefixStopsAll | app/src/main/java/app/adrienverge/automediarename/Worker.java:185-193 | in-order processing: when a call of `a` throws, processing `a + b` stops at that call in the same state |
| Run.CompletedPrefixContinues | app/src/main/java/app/adrienverge/automediarename/Worker.java:185-193 | in-order processing: when all calls of `a` finish, processing `a + b` is processing `b` from the state `a` left |
| Run.OtherFilesKept | app/src/main/java/app/adrienverge/automediarename/Worker.java:169-196 | while the calls are processed, a file of a directory that no call processes keeps its bytes under its name, whether or not the processing stops |
| Run.RunKeepsUnselectedFiles | app/src/main/java/app/adrienverge/automediarename/Worker.java:185-193 | after a run, as written or corrected, every file no call processes keeps its bytes under its name in its directory |
| Run.ProcessAll | app/src/main/java/app/adrienverge/automediarename/Worker.java:185-193 | directories with no call keep their contents; the run stops only at a JPEG whose bytes the decoder cannot read |
| Run.CheckedWriteAgreesWithoutWriteFaults | app/src/main/java/app/adrienverge/automediarename/Worker.java:227-232 | when no write fails, the corrected run and the run as written process every call alike |
| Run.DoWork | app/src/main/java/app/adrienverge/automediarename/Worker.java:82-115 | the run succeeds iff no file throws; the directories end as the processing left them in either case; on success it reports one count per selected file and persists exactly `max(clock - day, old bound)` |

## Findings

| source | as written | input that shows it | evidently intended | confidence | as-written member | corrected member |
|---|---|---|---|---|---|---|
| app/src/main/java/app/adrienverge/automediarename/Worker.java:227-230 | `compressedUri` is assigned as soon as the temporary document is created. A failure of `openOutputStream` or `write` is caught, and the swap at line 274 still runs. | `a.jpg` holding 4 bytes, recompression to 1 byte at threshold 0.5, backups not kept, write failing before any byte. Afterwards the directory holds only an empty `x_a.jpg`. | swap in only a fully written candidate; otherwise rename the original as for a discarded recompression | high for the modelled semantics; not executed | Commit.ProcessFile, Commit.WriteFailureLosesOriginal, Commit.EmptyWriteLosesContent | Commit.ProcessFileSafe, Commit.ProcessFileSafeNeverLosesContent |

`Run.DoWork` takes a flag `checkWrite`: false runs every file through `Commit.ProcessFile` as written, true through the corrected `Commit.ProcessFileSafe`. `Run.CheckedWriteAgreesWithoutWriteFaults` shows the two runs agree whenever no write fails.

## Left out

- Notifications, `Log` and `Logger` lines: user-interface side effects that change no state the model tracks.
- Android document-store calls (`query`, `createDocument`, `openOutputStream`, `renameDocument`, `deleteDocument`): replaced by `DocumentStore` on one directory's `map<string, Bytes>`, with failures injected through `Commit.Faults`. When a name is taken, the provider's exact collision naming is abstracted by `DocumentStore.FreshName`.
- A `null` cursor or `null` URI returned by the provider (which would throw): not modelled. The tree is a snapshot, so files processed earlier do not change later listings.
- `new File(docId).getParent()`: the temporary document is created in the directory being listed.
- JPEG decoding, re-encoding at the configured quality, and the EXIF transplant: one abstract codec `Bytes -> Encoding`.
- The float division of the ratio: modelled by exact cross-multiplication against a rational threshold, so float rounding is not modelled.
- Copying file timestamps to the recompressed file (lines 245-263) and `hasAccessToFullPaths` / `rootUriToFullPath`: filesystem attribute I/O.
- `getVolumePath`: the storage-manager lookup becomes a `map<string, string>` from volume id to directory; a null or unknown id gives null.
- Calendar arithmetic: "ten minutes" and "one day" are the parameters `lag` and `day`, with no daylight-saving effects. Java `long` overflow is not modelled.
- `Config` (rules, persisted bound, quality, threshold, keep-backup flag): `Config.java` is not part of this model. Its values are the `Run.Config` and `Commit.Settings` inputs, with the threshold a fraction with positive denominator.
- `MainActivity.java` and the scheduling of runs: user interface and work-manager plumbing; overlapping runs are out of scope.

=== FILE: commit.dfy ===
/**
 * `processFile`: for a JPEG whose recompression is kept, the bytes are
 * written to a temporary document and swapped in under the new name in
 * three steps (original to backup, temporary to new name, delete the
 * backup unless backups are kept); otherwise the file is simply renamed.
 * Every store call may fail, and a failing rename or delete stops the
 * steps after it, because its exception leaves the `try` block.
 */
module Commit {
  import opened Common
  import opened Selection
  import opened DocumentStore
  import opened Recompression

  /**
   * Which store calls fail for one file: creating the temporary document,
   * writing it (`Some(k)`: the write stops after at most `k` bytes), the
   * two renames of the swap, deleting the backup, and the plain rename.
   */
  datatype Faults = Faults(
    create: bool,
    write: Option<nat>,
    renameOriginal: bool,
    renameTemp: bool,
    deleteBackup: bool,
    renameFile: bool)

  /** The configuration `processFile` reads. */
  datatype Settings = Settings(keepBackup: bool, threshold: Ratio)

  /** A file either finishes, leaving its directory in some state, or throws out of the run. */
  datatype FileOutcome = Finished(store: Store) | Crashed

  /**
   * A run of the swap: the directory after each step that went through
   * (the first entry is the state before the swap), the backup's name once
   * step 1 went through, and the name the candidate took once step 2 did.
   */
  datatype Swap = Swap(states: seq<Store>, backup: Option<string>, committed: Option<string>)

  predicate Holds(s: Store, n: string, content: Bytes)
  {
    n in s && s[n] == content
  }

  /** The plain rename of the original to the new name, skipped when the name does not change. */
  function RenameFile(s: Store, name: string, newName: string, fails: bool): (r: Store)
    ensures name == newName || name !in s || fails ==> r == s
    ensures name != newName && name in s && !fails ==>
      exists n :: (newName !in s ==> n == newName) && Holds(r, n, s[name])
        && (n == name || n !in s) && (n == name || name !in r) && SameElsewhere(s, r, {name, n})
    ensures name != newName && name in s && !fails ==> name !in r
  {
    if name == newName then s
    else
      match Rename(s, name, newName, fails)
      case Failed => s
      case Done(t, n) =>
        assert (newName !in s ==> n == newName) && Holds(t, n, s[name])
          && (n == name || n !in s) && (n == name || name !in t) && SameElsewhere(s, t, {name, n});
        t
  }

  /**
   * The three-step swap of `processFile`, each step attempted only when the
   * one before went through: a failing step ends the trace with the state
   * before it.
   */
  function SwapIn(s: Store, name: string, temp: string, newName: string, keepBackup: bool, f: Faults): (w: Swap)
    ensures 1 <= |w.states| <= 4 && w.states[0] == s
    ensures w.backup.Some? <==> |w.states| >= 2
    ensures w.committed.Some? <==> |w.states| >= 3
    // Step 1: the original moves to the backup name, `name + BackupSuffix` when that is free.
    ensures |w.states| == 1 <==> name !in s || f.renameOriginal
    ensures |w.states| >= 2 ==>
      && Holds(w.states[1], w.backup.value, s[name]) && name !in w.states[1]
      && w.backup.value !in s && name + BackupSuffix <= w.backup.value
      && (name + BackupSuffix !in s ==> w.backup.value == name + BackupSuffix)
      && SameElsewhere(s, w.states[1], {name, w.backup.value})
    // Step 2: the temporary document moves to the new name, or to a free one.
    ensures |w.states| >= 2 ==> (|w.states| == 2 <==> temp !in w.states[1] || f.renameTemp)
    ensures |w.states| >= 3 ==>
      && Holds(w.states[2], w.committed.value, w.states[1][temp])
      && (w.committed.value == temp || w.committed.value !in w.states[1])
      && (newName !in w.states[1] ==> w.committed.value == newName)
      && SameElsewhere(w.states[1], w.states[2], {temp, w.committed.value})
    ensures |w.states| >= 3 && w.backup.value != temp ==> Holds(w.states[2], w.backup.value, s[name])
    ensures |w.states| >= 3 && newName != temp ==> w.committed.value != temp && temp !in w.states[2]
    // Step 3: the backup is deleted, unless backups are kept.
    ensures |w.states| >= 3 ==> (|w.states| == 3 <==> keepBackup || f.deleteBackup || w.backup.value !in w.states[2])
    ensures |w.states| == 4 ==>
      && !keepBackup && w.backup.value !in w.states[3]
      && SameElsewhere(w.states[2], w.states[3], {w.backup.value})
  {
    match Rename(s, name, name + BackupSuffix, f.renameOriginal)
    case Failed => Swap([s], None, None)
    case Done(s1, backup) =>
      assert name + BackupSuffix <= backup;
      match Rename(s1, temp, newName, f.renameTemp)
      case Failed => Swap([s, s1], Some(backup), None)
      case Done(s2, committed) =>
        if keepBackup then Swap([s, s1, s2], Some(backup), Some(committed))
        else
          match Delete(s2, backup, f.deleteBackup)
          case None => Swap([s, s1, s2], Some(backup), Some(committed))
          case Some(s3) => Swap([s, s1, s2, s3], Some(backup), Some(committed))
  }

  function Last(states: seq<Store>): Store
    requires |states| > 0
  {
    states[|states| - 1]
  }

  /**
   * Crash safety of the swap. Whichever step fails, and wherever the run
   * stops, every state the directory passes through holds the original's
   * bytes under its own name or under the backup name, until the candidate
   * holds the name it was renamed to; the backup is deleted only after
   * that. The candidate lands on the new name unless that name was taken
   * when step 2 ran.
   */
  lemma {:induction false} SwapKeepsOriginalReachable(s: Store, name: string, temp: string, newName: string, keepBackup: bool, f: Faults)
    requires name in s && temp in s && name != temp
    ensures var w := SwapIn(s, name, temp, newName, keepBackup, f);
      forall i :: 0 <= i < |w.states| ==>
        || Holds(w.states[i], name, s[name])
        || (w.backup.Some? && Holds(w.states[i], w.backup.value, s[name]))
        || (w.committed.Some? && Holds(w.states[i], w.committed.value, s[temp]))
    ensures var w := SwapIn(s, name, temp, newName, keepBackup, f);
      w.committed.Some? ==> Holds(Last(w.states), w.committed.value, s[temp])
    ensures var w := SwapIn(s, name, temp, newName, keepBackup, f);
      w.committed.Some? ==> w.committed.value == newName || newName in w.states[1]
  {
    var w := SwapIn(s, name, temp, newName, keepBackup, f);
    var r1 := Rename(s, name, name + BackupSuffix, f.renameOriginal);
    if r1.Done? {
      var s1, backup := r1.store, r1.name;
      assert backup != name by {
        assert name + BackupSuffix <= backup;
      }
      assert backup !in s;
      assert Holds(s1, temp, s[temp]);
      var r2 := Rename(s1, temp, newName, f.renameTemp);
      if r2.Done? {
        var s2, committed := r2.store, r2.name;
        assert committed != backup;
        assert Holds(s2, backup, s[name]);
        assert Holds(s2, committed, s[temp]);
        if !keepBackup {
          var r3 := Delete(s2, backup, f.deleteBackup);
          if r3.Some? {
            assert Holds(r3.value, committed, s[temp]);
          }
        }
      }
    }
  }

  /** Whether `processFile` obtains bytes to swap in: a JPEG whose recompression is kept. */
  predicate HasCandidate(s: Store, name: string, mime: string, codec: Bytes -> Encoding, threshold: Ratio)
    requires threshold.den > 0
  {
    mime == JpegMime && CompressJpeg(s, name, codec, threshold).Candidate?
  }

  /** Creating the temporary document next to `name` and writing `bytes` to it. */
  function Staged(s: Store, name: string, bytes: Bytes, f: Faults): Step
  {
    CreateAndWrite(s, name + TempSuffix, bytes, f.create, f.write)
  }

  /**
   * `processFile` as the source writes it. The candidate exists only for
   * MIME type `image/jpeg` when the recompression is kept. Once the
   * temporary document is created the swap runs, even when writing the
   * bytes into it failed.
   */
  function ProcessFile(s: Store, name: string, newName: string, mime: string,
                       settings: Settings, codec: Bytes -> Encoding, f: Faults): (r: FileOutcome)
    requires settings.threshold.den > 0
    ensures r.Crashed? <==> mime == JpegMime && name in s && codec(s[name]).Undecodable?
    ensures mime != JpegMime ==> r == Finished(RenameFile(s, name, newName, f.renameFile))
    // Without a candidate, or when the temporary document cannot be created: the plain rename.
    ensures !HasCandidate(s, name, mime, codec, settings.threshold) && !r.Crashed? ==>
      r == Finished(RenameFile(s, name, newName, f.renameFile))
    ensures HasCandidate(s, name, mime, codec, settings.threshold) && f.create ==>
      r == Finished(RenameFile(s, name, newName, f.renameFile))
    // Once the temporary document exists, the swap, whether or not the write went through.
    ensures HasCandidate(s, name, mime, codec, settings.threshold) && !f.create ==>
      var t := Staged(s, name, CompressJpeg(s, name, codec, settings.threshold).bytes, f);
      t.Done? && r == Finished(Last(SwapIn(t.store, name, t.name, newName, settings.keepBackup, f).states))
  {
    var compressed := if mime == JpegMime then CompressJpeg(s, name, codec, settings.threshold) else NoCandidate;
    match compressed
    case Crash => Crashed
    case NoCandidate => Finished(RenameFile(s, name, newName, f.renameFile))
    case Candidate(bytes) =>
      match Staged(s, name, bytes, f)
      case Failed => Finished(RenameFile(s, name, newName, f.renameFile))
      case Done(s1, temp) => Finished(Last(SwapIn(s1, name, temp, newName, settings.keepBackup, f).states))
  }

  /**
   * `processFile` with the temporary document's URI kept only once the
   * bytes are written: a failed write leaves the (incomplete) temporary
   * document behind and falls back to the plain rename.
   */
  function ProcessFileSafe(s: Store, name: string, newName: string, mime: string,
                           settings: Settings, codec: Bytes -> Encoding, f: Faults): (r: FileOutcome)
    requires settings.threshold.den > 0
    ensures r.Crashed? <==> mime == JpegMime && name in s && codec(s[name]).Undecodable?
    ensures mime != JpegMime ==> r == Finished(RenameFile(s, name, newName, f.renameFile))
    ensures !HasCandidate(s, name, mime, codec, settings.threshold) && !r.Crashed? ==>
      r == Finished(RenameFile(s, name, newName, f.renameFile))
    ensures HasCandidate(s, name, mime, codec, settings.threshold) && f.create ==>
      r == Finished(RenameFile(s, name, newName, f.renameFile))
    // A failed write: the plain rename, next to the incomplete temporary document.
    ensures HasCandidate(s, name, mime, codec, settings.threshold) && !f.create && f.write.Some? ==>
      var t := Staged(s, name, CompressJpeg(s, name, codec, settings.threshold).bytes, f);
      t.Done? && r == Finished(RenameFile(t.store, name, newName, f.renameFile))
    // A complete write: the swap.
    ensures HasCandidate(s, name, mime, codec, settings.threshold) && !f.create && f.write.None? ==>
      var t := Staged(s, name, CompressJpeg(s, name, codec, settings.threshold).bytes, f);
      t.Done? && r == Finished(Last(SwapIn(t.store, name, t.name, newName, settings.keepBackup, f).states))
    ensures f.write.None? ==> r == ProcessFile(s, name, newName, mime, settings, codec, f)
  {
    var compressed := if mime == JpegMime then CompressJpeg(s, name, codec, settings.threshold) else NoCandidate;
    match compressed
    case Crash => Crashed
    case NoCandidate => Finished(RenameFile(s, name, newName, f.renameFile))
    case Candidate(bytes) =>
      match Staged(s, name, bytes, f)
      case Failed => Finished(RenameFile(s, name, newName, f.renameFile))
      case Done(s1, temp) =>
        if f.write.Some? then Finished(RenameFile(s1, name, newName, f.renameFile))
        else Finished(Last(SwapIn(s1, name, temp, newName, settings.keepBackup, f).states))
  }

  /** Whether `content` sits in `t` under `name` itself or under a name that was free in `s`. */
  ghost predicate Reachable(s: Store, t: Store, name: string, content: Bytes)
  {
    exists n :: (n == name || n !in s) && Holds(t, n, content)
  }

  /** Whether the codec's output for `original` passes the ratio test. */
  predicate Kept(original: Bytes, codec: Bytes -> Encoding, threshold: Ratio)
    requires threshold.den > 0
  {
    codec(original).Encoded? && KeepRecompressed(|codec(original).bytes|, |original|, threshold)
  }

  /**
   * The file `name` of `s` is not lost in `t`: its bytes, or a kept
   * recompression of them, sit under its own name or under a name the
   * processing created. Another file holding the same bytes does not count.
   */
  ghost predicate Preserved(s: Store, t: Store, name: string, codec: Bytes -> Encoding, threshold: Ratio)
    requires name in s && threshold.den > 0
  {
    || Reachable(s, t, name, s[name])
    || (Kept(s[name], codec, threshold) && Reachable(s, t, name, codec(s[name]).bytes))
  }

  lemma RenameFilePreserves(s: Store, name: string, newName: string, fails: bool)
    requires name in s
    ensures Reachable(s, RenameFile(s, name, newName, fails), name, s[name])
  {
    var r := RenameFile(s, name, newName, fails);
    if name != newName && !fails {
      var n :| (n == name || n !in s) && Holds(r, n, s[name]);
    } else {
      assert Holds(r, name, s[name]);
    }
  }

  /** What is reachable relative to a larger directory is reachable relative to a smaller one. */
  lemma ReachableFromLarger(s: Store, s1: Store, t: Store, name: string, content: Bytes)
    requires s.Keys <= s1.Keys
    requires Reachable(s1, t, name, content)
    ensures Reachable(s, t, name, content)
  {
    var n :| (n == name || n !in s1) && Holds(t, n, content);
    assert n == name || n !in s;
  }

  /**
   * Whatever fails, no file's content is lost: when `processFile` (with
   * the write checked) finishes, the directory still holds the original's
   * bytes or the kept recompression of them, under the file's name or a
   * name the processing created.
   */
  lemma {:induction false} ProcessFileSafeNeverLosesContent(s: Store, name: string, newName: string, mime: string,
                                          settings: Settings, codec: Bytes -> Encoding, f: Faults)
    requires settings.threshold.den > 0
    requires name in s
    ensures var r := ProcessFileSafe(s, name, newName, mime, settings, codec, f);
      r.Finished? ==> Preserved(s, r.store, name, codec, settings.threshold)
  {
    var r := ProcessFileSafe(s, name, newName, mime, settings, codec, f);
    var compressed := if mime == JpegMime then CompressJpeg(s, name, codec, settings.threshold) else NoCandidate;
    if compressed.Candidate? {
      var c := Staged(s, name, compressed.bytes, f);
      if c.Failed? {
        RenameFilePreserves(s, name, newName, f.renameFile);
      } else if f.write.Some? {
        assert Holds(c.store, name, s[name]);
        RenameFilePreserves(c.store, name, newName, f.renameFile);
        ReachableFromLarger(s, c.store, r.store, name, s[name]);
      } else {
        var temp := c.name;
        assert c.store[temp] == compressed.bytes && temp !in s;
        assert Holds(c.store, name, s[name]) && s.Keys <= c.store.Keys;
        SwapPreserves(s, c.store, name, temp, newName, settings, codec, f);
        assert r.store == Last(SwapIn(c.store, name, temp, newName, settings.keepBackup, f).states);
      }
    } else if compressed.NoCandidate? {
      RenameFilePreserves(s, name, newName, f.renameFile);
    }
  }

  /** The swap of a kept recompression leaves the original, its backup or the recompression reachable. */
  lemma SwapPreserves(s: Store, cs: Store, name: string, temp: string, newName: string,
                      settings: Settings, codec: Bytes -> Encoding, f: Faults)
    requires settings.threshold.den > 0 && name in s && Kept(s[name], codec, settings.threshold)
    requires Holds(cs, name, s[name]) && s.Keys <= cs.Keys
    requires temp !in s && Holds(cs, temp, codec(s[name]).bytes)
    ensures Preserved(s, Last(SwapIn(cs, name, temp, newName, settings.keepBackup, f).states), name, codec, settings.threshold)
  {
    SwapKeepsOriginalReachable(cs, name, temp, newName, settings.keepBackup, f);
    var w := SwapIn(cs, name, temp, newName, settings.keepBackup, f);
    var t := Last(w.states);
    if Holds(t, name, s[name]) {
      assert Reachable(s, t, name, s[name]);
    } else if w.backup.Some? && Holds(t, w.backup.value, s[name]) {
      assert Reachable(s, t, name, s[name]);
    } else {
      assert w.committed.Some? && Holds(t, w.committed.value, codec(s[name]).bytes);
      var n := w.committed.value;
      assert n == name || n !in s by {
        if n != temp && n != name {
          assert n !in w.states[1];
          assert SameElsewhere(cs, w.states[1], {name, w.backup.value});
        }
      }
      assert Reachable(s, t, name, codec(s[name]).bytes);
    }
  }

  /** The plain rename moves only `name`: every other file keeps its bytes. */
  lemma RenameFileLeavesOthers(s: Store, name: string, newName: string, fails: bool, y: string)
    requires y in s && y != name
    ensures Holds(RenameFile(s, name, newName, fails), y, s[y])
  {
    var r := RenameFile(s, name, newName, fails);
    if name != newName && name in s && !fails {
      var n :| (n == name || n !in s) && SameElsewhere(s, r, {name, n});
      assert y !in {name, n};
    }
  }

  /**
   * The swap moves only the original, the temporary document and the
   * backup: a file that was there before and is neither of the first two
   * keeps its bytes, whichever step fails.
   */
  lemma SwapLeavesOthers(t: Store, name: string, temp: string, newName: string, keepBackup: bool, f: Faults, y: string)
    requires y in t && y != name && y != temp
    ensures Holds(Last(SwapIn(t, name, temp, newName, keepBackup, f).states), y, t[y])
  {
    var w := SwapIn(t, name, temp, newName, keepBackup, f);
    if |w.states| >= 2 {
      assert y !in {name, w.backup.value};
      if |w.states| >= 3 {
        assert y !in {temp, w.committed.value};
        if |w.states| == 4 {
          assert y !in {w.backup.value};
        }
      }
    }
  }

  /**
   * Processing one file touches no other file of its directory: a name
   * that was there before keeps its bytes, whichever store calls fail.
   */
  lemma ProcessFileLeavesOthers(s: Store, name: string, newName: string, mime: string,
                                settings: Settings, codec: Bytes -> Encoding, f: Faults, y: string)
    requires settings.threshold.den > 0
    requires y in s && y != name
    ensures var r := ProcessFile(s, name, newName, mime, settings, codec, f);
      r.Finished? ==> Holds(r.store, y, s[y])
  {
    var compressed := if mime == JpegMime then CompressJpeg(s, name, codec, settings.threshold) else NoCandidate;
    if compressed.Candidate? {
      var c := Staged(s, name, compressed.bytes, f);
      if c.Failed? {
        RenameFileLeavesOthers(s, name, newName, f.renameFile, y);
      } else {
        assert y !in {c.name};
        SwapLeavesOthers(c.store, name, c.name, newName, settings.keepBackup, f, y);
      }
    } else if compressed.NoCandidate? {
      RenameFileLeavesOthers(s, name, newName, f.renameFile, y);
    }
  }

  /** The same for the corrected processing, including its fallback after a failed write. */
  lemma ProcessFileSafeLeavesOthers(s: Store, name: string, newName: string, mime: string,
                                    settings: Settings, codec: Bytes -> Encoding, f: Faults, y: string)
    requires settings.threshold.den > 0
    requires y in s && y != name
    ensures var r := ProcessFileSafe(s, name, newName, mime, settings, codec, f);
      r.Finished? ==> Holds(r.store, y, s[y])
  {
    var compressed := if mime == JpegMime then CompressJpeg(s, name, codec, settings.threshold) else NoCandidate;
    if compressed.Candidate? {
      var c := Staged(s, name, compressed.bytes, f);
      if c.Failed? {
        RenameFileLeavesOthers(s, name, newName, f.renameFile, y);
      } else {
        assert y !in {c.name};
        if f.write.Some? {
          RenameFileLeavesOthers(c.store, name, newName, f.renameFile, y);
        } else {
          SwapLeavesOthers(c.store, name, c.name, newName, settings.keepBackup, f, y);
        }
      }
    } else if compressed.NoCandidate? {
      RenameFileLeavesOthers(s, name, newName, f.renameFile, y);
    }
  }

  /** Whether every name of `t` that is not in `s` is one of `names`. */
  predicate NewNamesAmong(s: Store, t: Store, names: set<string>)
  {
    forall n :: n in t && n !in s ==> n in names
  }

  /** A plain rename to a free name creates no name but that one. */
  lemma RenameFileNewNames(s: Store, name: string, newName: string, fails: bool)
    requires newName !in s
    ensures NewNamesAmong(s, RenameFile(s, name, newName, fails), {newName})
  {
    var r := RenameFile(s, name, newName, fails);
    if name != newName && name in s && !fails {
      var n :| (newName !in s ==> n == newName) && SameElsewhere(s, r, {name, n});
      assert n == newName;
    }
  }

  /**
   * When `name + BackupSuffix` and the new name are free, the swap creates
   * no name but those two, whichever step fails.
   */
  lemma SwapNewNames(t: Store, name: string, temp: string, newName: string, keepBackup: bool, f: Faults)
    requires name + BackupSuffix !in t && newName !in t && newName != name + BackupSuffix
    ensures NewNamesAmong(t, Last(SwapIn(t, name, temp, newName, keepBackup, f).states), {name + BackupSuffix, newName})
  {
    var w := SwapIn(t, name, temp, newName, keepBackup, f);
    var backup := name + BackupSuffix;
    if |w.states| >= 2 {
      assert w.backup.value == backup;
      assert NewNamesAmong(t, w.states[1], {backup});
      if |w.states| >= 3 {
        assert newName !in w.states[1];
        assert NewNamesAmong(t, w.states[2], {backup, newName});
      }
    }
  }

  /**
   * The names `processFile` adds to the directory, as written: when the
   * temporary, backup and new names are free, every name the result holds
   * that was not there before is the new name, `name + TempSuffix` or
   * `name + BackupSuffix`.
   */
  lemma ProcessFileNewNames(s: Store, name: string, newName: string, mime: string,
                            settings: Settings, codec: Bytes -> Encoding, f: Faults)
    requires settings.threshold.den > 0
    requires name + TempSuffix !in s && name + BackupSuffix !in s && newName !in s
    requires newName != name + TempSuffix && newName != name + BackupSuffix
    ensures var r := ProcessFile(s, name, newName, mime, settings, codec, f);
      r.Finished? ==> NewNamesAmong(s, r.store, {newName, name + TempSuffix, name + BackupSuffix})
  {
    var compressed := if mime == JpegMime then CompressJpeg(s, name, codec, settings.threshold) else NoCandidate;
    if compressed.Candidate? {
      var c := Staged(s, name, compressed.bytes, f);
      if c.Failed? {
        RenameFileNewNames(s, name, newName, f.renameFile);
      } else {
        assert c.name == name + TempSuffix;
        assert name + BackupSuffix !in c.store by {
          assert name + BackupSuffix != name + TempSuffix by {
            assert (name + BackupSuffix)[|name|..] == BackupSuffix && (name + TempSuffix)[|name|..] == TempSuffix;
          }
        }
        SwapNewNames(c.store, name, c.name, newName, settings.keepBackup, f);
      }
    } else if compressed.NoCandidate? {
      RenameFileNewNames(s, name, newName, f.renameFile);
    }
  }

  /**
   * Hence a later scan never selects what `processFile` leaves behind
   * besides the renamed file: every other name it adds fails the
   * reserved-suffix guard.
   */
  lemma LeftoversNeverSelected(s: Store, name: string, newName: string, mime: string,
                               settings: Settings, codec: Bytes -> Encoding, f: Faults,
                               e: Entry, w: Window, rules: seq<Rule>)
    requires settings.threshold.den > 0
    requires name + TempSuffix !in s && name + BackupSuffix !in s && newName !in s
    requires newName != name + TempSuffix && newName != name + BackupSuffix
    requires var r := ProcessFile(s, name, newName, mime, settings, codec, f);
      r.Finished? && e.name in r.store && e.name !in s && e.name != newName
    ensures !Classify(e, w, rules).Matched?
  {
    ProcessFileNewNames(s, name, newName, mime, settings, codec, f);
    OwnArtifactsNeverSelected(e, w, rules, name);
  }

  /**
   * As written, the original can be lost: the temporary document is
   * created, the write fails before any byte, and the swap still runs, so
   * the new name ends up holding an empty document and the backup of the
   * original is deleted.
   */
  lemma WriteFailureLosesOriginal()
    ensures var original: Bytes := [1, 2, 3, 4];
      var s := map["a.jpg" := original];
      var codec := (b: Bytes) => Encoded([9]);
      var settings := Settings(false, Ratio(1, 2));
      var f := Faults(false, Some(0), false, false, false, false);
      var r := ProcessFile(s, "a.jpg", "x_a.jpg", JpegMime, settings, codec, f);
      && r == Finished(map["x_a.jpg" := []])
      && original !in r.store.Values
      && !Preserved(s, r.store, "a.jpg", codec, settings.threshold)
  {
    var original: Bytes := [1, 2, 3, 4];
    var s := map["a.jpg" := original];
    var codec := (b: Bytes) => Encoded([9]);
    var settings := Settings(false, Ratio(1, 2));
    var f := Faults(false, Some(0), false, false, false, false);
    WriteFailureRun(original, s, codec, settings, f);
    var empty: Bytes := [];
    var nine: Bytes := [9];
    assert map["x_a.jpg" := empty].Values == {empty};
  }

  /** The steps of that run, one by one. */
  lemma WriteFailureRun(original: Bytes, s: Store, codec: Bytes -> Encoding, settings: Settings, f: Faults)
    requires original == [1, 2, 3, 4] && s == map["a.jpg" := original]
    requires forall b :: codec(b) == Encoded([9])
    requires settings == Settings(false, Ratio(1, 2)) && f == Faults(false, Some(0), false, false, false, false)
    ensures ProcessFile(s, "a.jpg", "x_a.jpg", JpegMime, settings, codec, f) == Finished(map["x_a.jpg" := []])
  {
    var temp := "a.jpg" + TempSuffix;
    var backup := "a.jpg" + BackupSuffix;
    assert CompressJpeg(s, "a.jpg", codec, settings.threshold) == Candidate([9]);
    assert temp !in s;
    var s1 := s[temp := []];
    assert CreateAndWrite(s, temp, [9], false, Some(0)) == Done(s1, temp);
    assert backup !in (s1 - {"a.jpg"}).Keys;
    var s2 := (s1 - {"a.jpg"})[backup := original];
    assert Rename(s1, "a.jpg", backup, false) == Done(s2, backup);
    assert "x_a.jpg" !in (s2 - {temp}).Keys;
    var s3 := (s2 - {temp})["x_a.jpg" := []];
    assert Rename(s2, temp, "x_a.jpg", false) == Done(s3, "x_a.jpg");
    assert s3 - {backup} == map["x_a.jpg" := []];
  }

  /**
   * The loss in general, as written: a kept recompression whose temporary
   * document is created but receives no byte, with backups not kept and
   * the temporary, backup and new names free, ends with the new name
   * holding an empty document and the original gone.
   */
  lemma EmptyWriteReplacesOriginal(s: Store, name: string, newName: string, settings: Settings,
                                   codec: Bytes -> Encoding, renameFails: bool)
    requires settings.threshold.den > 0 && !settings.keepBackup
    requires HasCandidate(s, name, JpegMime, codec, settings.threshold)
    requires name != newName && newName !in s
    requires name + TempSuffix !in s && name + BackupSuffix !in s
    requires newName != name + TempSuffix && newName != name + BackupSuffix
    ensures ProcessFile(s, name, newName, JpegMime, settings, codec, Faults(false, Some(0), false, false, false, renameFails))
         == Finished((s - {name})[newName := []])
  {
    var f := Faults(false, Some(0), false, false, false, renameFails);
    var c := CompressJpeg(s, name, codec, settings.threshold);
    var temp := name + TempSuffix;
    var empty: Bytes := [];
    var s1 := s[temp := empty];
    EmptyStaged(s, name, c.bytes, f);
    assert ProcessFile(s, name, newName, JpegMime, settings, codec, f)
        == Finished(Last(SwapIn(s1, name, temp, newName, false, f).states));
    SwapWithoutFaults(s1, name, temp, newName, f);
    assert (s1 - {name, temp})[newName := empty] == (s - {name})[newName := empty];
  }

  /**
   * Staging with a write that stores no byte: the temporary document is
   * created empty under `name + TempSuffix` when that name is free.
   */
  lemma EmptyStaged(s: Store, name: string, bytes: Bytes, f: Faults)
    requires name in s && name + TempSuffix !in s && name + BackupSuffix !in s
    requires !f.create && f.write == Some(0)
    ensures Staged(s, name, bytes, f) == Done(s[name + TempSuffix := []], name + TempSuffix)
    ensures name != name + TempSuffix && name + BackupSuffix !in s[name + TempSuffix := []]
  {
    var temp := name + TempSuffix;
    assert |name| < |temp|;
    assert (name + BackupSuffix)[|name|..] == BackupSuffix && temp[|name|..] == TempSuffix;
  }

  /**
   * A swap in which no step fails, with the backup and new names free and
   * backups not kept: the original and the temporary document are gone
   * and the new name holds the temporary document's bytes.
   */
  lemma SwapWithoutFaults(t: Store, name: string, temp: string, newName: string, f: Faults)
    requires name in t && temp in t && name != temp
    requires name + BackupSuffix !in t && newName !in t && newName != name + BackupSuffix
    requires !f.renameOriginal && !f.renameTemp && !f.deleteBackup
    ensures Last(SwapIn(t, name, temp, newName, false, f).states) == (t - {name, temp})[newName := t[temp]]
  {
    var w := SwapIn(t, name, temp, newName, false, f);
    var backup := name + BackupSuffix;
    assert w.backup.value == backup && temp in w.states[1];
    assert newName !in w.states[1];
    assert w.committed.value == newName && backup in w.states[2];
    var u := Last(w.states);
    assert u.Keys == (t - {name, temp})[newName := t[temp]].Keys;
  }

  /**
   * Hence, as written, the file is lost whenever its recompression is not
   * itself empty: neither its bytes nor the recompression are left under
   * its name or a name the processing created.
   */
  lemma EmptyWriteLosesContent(s: Store, name: string, newName: string, settings: Settings,
                               codec: Bytes -> Encoding, renameFails: bool)
    requires settings.threshold.den > 0 && !settings.keepBackup
    requires HasCandidate(s, name, JpegMime, codec, settings.threshold)
    requires name != newName && newName !in s
    requires name + TempSuffix !in s && name + BackupSuffix !in s
    requires newName != name + TempSuffix && newName != name + BackupSuffix
    requires |codec(s[name]).bytes| > 0
    ensures var r := ProcessFile(s, name, newName, JpegMime, settings, codec, Faults(false, Some(0), false, false, false, renameFails));
      r.Finished? && !Preserved(s, r.store, name, codec, settings.threshold)
  {
    EmptyWriteReplacesOriginal(s, name, newName, settings, codec, renameFails);
    var t: Store := (s - {name})[newName := []];
    KeepIffRatioBelowThreshold(|codec(s[name]).bytes|, |s[name]|, settings.threshold);
    forall n | n == name || n !in s
      ensures !Holds(t, n, s[name]) && !Holds(t, n, codec(s[name]).bytes)
    {
      if n in t {
        assert n == newName;
      }
    }
  }
}

=== FILE: common.dfy ===
/** Small shared vocabulary: optional values, bytes and string suffixes. */
module Common {

  /** The model's stand-in for a Java reference that may be null. */
  datatype Option<+T> = None | Some(value: T)

  newtype byte = x: int | 0 <= x < 256

  /** The contents of one document. */
  type Bytes = seq<byte>

  /** Java's `String.endsWith`. */
  predicate EndsWith(s: string, suffix: string)
  {
    |suffix| <= |s| && s[|s| - |suffix|..] == suffix
  }

  /** Java's `String.startsWith`. */
  predicate StartsWith(s: string, prefix: string)
  {
    |prefix| <= |s| && s[..|prefix|] == prefix
  }

  lemma EndsWithAppended(s: string, suffix: string)
    ensures EndsWith(s + suffix, suffix)
  {
    assert (s + suffix)[|s|..] == suffix;
  }

  function Max(a: int, b: int): int
  {
    if a < b then b else a
  }
}

=== FILE: fileutil.dfy ===
/**
 * The string helpers of `FileUtil` that turn a document-tree URI into a
 * filesystem path: split a document id on `:` the way Java's
 * `String.split` does, take the volume id and the document path from it,
 * and join the volume directory and the document path with a `/` at the seam.
 *
 * The split is described by positions in the id: `ColonIndexFrom(s, k)`
 * is the first colon at or after `k`, and `FieldsFrom(s, k)` the fields of
 * the text from `k` on.
 */
module FileUtil {
  import opened Common

  const Separator: char := '/'
  const Colon: char := ':'

  /** A document URI built "using tree": the id of the tree root and the id of the document. */
  datatype TreeUri = TreeUri(treeDocumentId: string, documentId: string)

  /** Index of the first colon in `s` at or after `k`, or `|s|` when there is none. */
  function ColonIndexFrom(s: string, k: nat): (i: nat)
    requires k <= |s|
    ensures k <= i <= |s|
    ensures i < |s| ==> s[i] == Colon
    decreases |s| - k
  {
    if k == |s| then k
    else if s[k] == Colon then k
    else ColonIndexFrom(s, k + 1)
  }

  /** Index of the first colon in `s`, or `|s|` when there is none. */
  function ColonIndex(s: string): nat
  {
    ColonIndexFrom(s, 0)
  }

  /** No colon lies between `k` and the one `ColonIndexFrom` finds. */
  lemma {:induction false} ColonIndexFromIsFirst(s: string, k: nat)
    requires k <= |s|
    ensures forall m :: k <= m < ColonIndexFrom(s, k) ==> s[m] != Colon
    decreases |s| - k
  {
    if k < |s| && s[k] != Colon {
      ColonIndexFromIsFirst(s, k + 1);
    }
  }

  /** When nothing from `k` on is a colon, the search runs to the end. */
  lemma {:induction false} NoColonFrom(s: string, k: nat)
    requires k <= |s| && forall m :: k <= m < |s| ==> s[m] != Colon
    ensures ColonIndexFrom(s, k) == |s|
    decreases |s| - k
  {
    if k < |s| {
      NoColonFrom(s, k + 1);
    }
  }

  /** All fields of `s[start..]` between colons, empty ones included. */
  function FieldsFrom(s: string, start: nat): (r: seq<string>)
    requires start <= |s|
    ensures |r| >= 1
    decreases |s| - start
  {
    var i := ColonIndexFrom(s, start);
    if i == |s| then [s[start..]] else [s[start..i]] + FieldsFrom(s, i + 1)
  }

  /** All fields of `s` between colons, empty ones included. */
  function Fields(s: string): seq<string>
  {
    FieldsFrom(s, 0)
  }

  /** Puts the fields back together with a colon between neighbours. */
  function JoinFields(fs: seq<string>): string
    requires |fs| >= 1
  {
    if |fs| == 1 then fs[0] else fs[0] + [Colon] + JoinFields(fs[1..])
  }

  /** Drops the empty strings at the end of `fs`, as `split` with limit 0 does. */
  function DropTrailingEmpty(fs: seq<string>): (r: seq<string>)
    ensures |r| <= |fs|
  {
    if |fs| == 0 then []
    else if fs[|fs| - 1] == "" then DropTrailingEmpty(fs[..|fs| - 1])
    else fs
  }

  /** What is dropped: only empty strings, and only from the end. */
  lemma {:induction false} DropTrailingEmptySpec(fs: seq<string>)
    ensures var r := DropTrailingEmpty(fs);
      && r == fs[..|r|]
      && (|r| > 0 ==> r[|r| - 1] != "")
      && forall k :: |r| <= k < |fs| ==> fs[k] == ""
  {
    if |fs| > 0 && fs[|fs| - 1] == "" {
      var init := fs[..|fs| - 1];
      DropTrailingEmptySpec(init);
      var r := DropTrailingEmpty(init);
      assert init[..|r|] == fs[..|r|];
    }
  }

  /**
   * Java's `s.split(":")`: a string without a colon is returned whole
   * (even the empty string); otherwise the fields, trailing empty ones
   * removed.
   */
  function JavaSplit(s: string): seq<string>
  {
    if ColonIndex(s) == |s| then [s] else DropTrailingEmpty(Fields(s))
  }

  /** Whether `s` holds a character other than a colon at `k` or later. */
  predicate HasNonColonFrom(s: string, k: nat)
  {
    exists m :: k <= m < |s| && s[m] != Colon
  }

  /** Whether `s` holds a character other than a colon. */
  predicate HasNonColon(s: string)
  {
    HasNonColonFrom(s, 0)
  }

  /** Whether some field at index `n` or later is non-empty. */
  predicate NonEmptyFrom(fs: seq<string>, n: nat)
  {
    exists j :: n <= j < |fs| && |fs[j]| > 0
  }

  /** One step of the field split, when there is a colon. */
  lemma FieldsUnfold(s: string, start: nat)
    requires start <= |s| && ColonIndexFrom(s, start) < |s|
    ensures FieldsFrom(s, start) == [s[start..ColonIndexFrom(s, start)]] + FieldsFrom(s, ColonIndexFrom(s, start) + 1)
  {
  }

  /** Past field 0, the fields are those after the first colon, one place further on. */
  lemma FieldAt(s: string, start: nat, j: nat)
    requires start <= |s| && ColonIndexFrom(s, start) < |s| && j < |FieldsFrom(s, ColonIndexFrom(s, start) + 1)|
    ensures j + 1 < |FieldsFrom(s, start)| && FieldsFrom(s, start)[j + 1] == FieldsFrom(s, ColonIndexFrom(s, start) + 1)[j]
  {
  }

  /** ... and there are as many of them. */
  lemma FieldsLength(s: string, start: nat)
    requires start <= |s| && ColonIndexFrom(s, start) < |s|
    ensures |FieldsFrom(s, start)| == |FieldsFrom(s, ColonIndexFrom(s, start) + 1)| + 1
  {
  }

  /** Field 0 is the text up to the first colon. */
  lemma FirstFieldText(s: string, start: nat)
    requires start <= |s|
    ensures FieldsFrom(s, start)[0] == s[start..ColonIndexFrom(s, start)]
  {
  }

  /** Splitting and joining again gives back the original string. */
  lemma FieldsJoinRoundTrip(s: string)
    ensures JoinFields(Fields(s)) == s
  {
    FieldsFromJoinRoundTrip(s, 0);
    assert s[0..] == s;
  }

  lemma {:induction false} FieldsFromJoinRoundTrip(s: string, start: nat)
    requires start <= |s|
    ensures JoinFields(FieldsFrom(s, start)) == s[start..]
    decreases |s| - start
  {
    var i := ColonIndexFrom(s, start);
    if i < |s| {
      FieldsFromJoinRoundTrip(s, i + 1);
      JoinStep(s, start);
    }
  }

  lemma JoinStep(s: string, start: nat)
    requires start <= |s| && ColonIndexFrom(s, start) < |s|
    requires JoinFields(FieldsFrom(s, ColonIndexFrom(s, start) + 1)) == s[ColonIndexFrom(s, start) + 1..]
    ensures JoinFields(FieldsFrom(s, start)) == s[start..]
  {
    var i := ColonIndexFrom(s, start);
    FieldsUnfold(s, start);
    CutAt(s, start, i);
    JoinFieldsCons(s[start..i], FieldsFrom(s, i + 1), s[i + 1..], s[start..]);
  }

  lemma JoinFieldsCons(x: string, gs: seq<string>, tail: string, whole: string)
    requires |gs| >= 1 && JoinFields(gs) == tail && whole == x + [Colon] + tail
    ensures JoinFields([x] + gs) == whole
  {
    assert ([x] + gs)[1..] == gs;
  }

  lemma CutAt(s: string, start: nat, i: nat)
    requires start <= i < |s| && s[i] == Colon
    ensures s[start..] == s[start..i] + [Colon] + s[i + 1..]
  {
  }

  /** No field contains the separator. */
  lemma FieldsHaveNoColon(s: string)
    ensures forall j, k :: 0 <= j < |Fields(s)| && 0 <= k < |Fields(s)[j]| ==> Fields(s)[j][k] != Colon
  {
    FieldsFromHaveNoColon(s, 0);
  }

  lemma {:induction false} FieldsFromHaveNoColon(s: string, start: nat)
    requires start <= |s|
    ensures forall j, k :: 0 <= j < |FieldsFrom(s, start)| && 0 <= k < |FieldsFrom(s, start)[j]| ==> FieldsFrom(s, start)[j][k] != Colon
    decreases |s| - start
  {
    var i := ColonIndexFrom(s, start);
    ColonIndexFromIsFirst(s, start);
    FirstFieldText(s, start);
    if i < |s| {
      FieldsFromHaveNoColon(s, i + 1);
      FieldsLength(s, start);
      forall j, k | 0 <= j < |FieldsFrom(s, start)| && 0 <= k < |FieldsFrom(s, start)[j]|
        ensures FieldsFrom(s, start)[j][k] != Colon
      {
        if j > 0 {
          FieldAt(s, start, j - 1);
        } else {
          assert FieldsFrom(s, start)[0][k] == s[start + k];
        }
      }
    } else {
      forall k | 0 <= k < |FieldsFrom(s, start)[0]| ensures FieldsFrom(s, start)[0][k] != Colon {
        assert FieldsFrom(s, start)[0][k] == s[start + k];
      }
    }
  }

  /** Some field is non-empty exactly when some character is not a colon. */
  lemma NonEmptyFieldIffNonColon(s: string)
    ensures NonEmptyFrom(Fields(s), 0) <==> HasNonColon(s)
  {
    FieldsFromNonEmpty(s, 0);
  }

  lemma {:induction false} FieldsFromNonEmpty(s: string, start: nat)
    requires start <= |s|
    ensures NonEmptyFrom(FieldsFrom(s, start), 0) <==> HasNonColonFrom(s, start)
    decreases |s| - start
  {
    var i := ColonIndexFrom(s, start);
    ColonIndexFromIsFirst(s, start);
    FirstFieldText(s, start);
    if i == |s| {
      LastFieldNonEmpty(s, start);
    } else {
      FieldsFromNonEmpty(s, i + 1);
      if HasNonColonFrom(s, start) {
        NonColonGivesField(s, start);
      }
      if NonEmptyFrom(FieldsFrom(s, start), 0) {
        FieldGivesNonColon(s, start);
      }
    }
  }

  lemma LastFieldNonEmpty(s: string, start: nat)
    requires start <= |s| && ColonIndexFrom(s, start) == |s|
    requires forall m :: start <= m < |s| ==> s[m] != Colon
    ensures NonEmptyFrom(FieldsFrom(s, start), 0) <==> HasNonColonFrom(s, start)
  {
    var fs := FieldsFrom(s, start);
    assert fs == [s[start..]];
    if start < |s| {
      NonEmptyWitness(fs, 0, 0);
      assert s[start] != Colon;
    }
  }

  lemma NonColonGivesField(s: string, start: nat)
    requires start <= |s| && ColonIndexFrom(s, start) < |s| && HasNonColonFrom(s, start)
    requires forall m :: start <= m < ColonIndexFrom(s, start) ==> s[m] != Colon
    requires HasNonColonFrom(s, ColonIndexFrom(s, start) + 1) ==> NonEmptyFrom(FieldsFrom(s, ColonIndexFrom(s, start) + 1), 0)
    ensures NonEmptyFrom(FieldsFrom(s, start), 0)
  {
    var i := ColonIndexFrom(s, start);
    var fs, gs := FieldsFrom(s, start), FieldsFrom(s, i + 1);
    var m :| start <= m < |s| && s[m] != Colon;
    if m < i {
      FirstFieldText(s, start);
      NonEmptyWitness(fs, 0, 0);
    } else {
      assert i < m;
      var j :| 0 <= j < |gs| && |gs[j]| > 0;
      FieldAt(s, start, j);
      NonEmptyWitness(fs, 0, j + 1);
    }
  }

  lemma FieldGivesNonColon(s: string, start: nat)
    requires start <= |s| && ColonIndexFrom(s, start) < |s| && NonEmptyFrom(FieldsFrom(s, start), 0)
    requires NonEmptyFrom(FieldsFrom(s, ColonIndexFrom(s, start) + 1), 0) ==> HasNonColonFrom(s, ColonIndexFrom(s, start) + 1)
    requires forall m :: start <= m < ColonIndexFrom(s, start) ==> s[m] != Colon
    ensures HasNonColonFrom(s, start)
  {
    var i := ColonIndexFrom(s, start);
    var fs, gs := FieldsFrom(s, start), FieldsFrom(s, i + 1);
    var j :| 0 <= j < |fs| && |fs[j]| > 0;
    if j == 0 {
      FirstFieldText(s, start);
      assert s[start] != Colon;
    } else {
      FieldsLength(s, start);
      FieldAt(s, start, j - 1);
      NonEmptyWitness(gs, 0, j - 1);
      var m :| i + 1 <= m < |s| && s[m] != Colon;
      assert start <= m;
    }
  }

  lemma NonEmptyWitness(fs: seq<string>, n: nat, j: nat)
    requires n <= j < |fs| && |fs[j]| > 0
    ensures NonEmptyFrom(fs, n)
  {
  }

  /** How long the split is: at least `n + 1` fields survive iff a non-empty field sits at index `n` or later. */
  lemma SplitLengthAtLeast(fs: seq<string>, n: nat)
    ensures |DropTrailingEmpty(fs)| > n <==> NonEmptyFrom(fs, n)
  {
    var r := DropTrailingEmpty(fs);
    DropTrailingEmptySpec(fs);
    if |r| > n {
      assert fs[|r| - 1] == r[|r| - 1];
    }
  }

  /** The split is empty exactly when the id is non-empty and made of colons only. */
  lemma SplitEmptyIffOnlyColons(s: string)
    ensures |JavaSplit(s)| == 0 <==> s != "" && !HasNonColon(s)
  {
    var i := ColonIndex(s);
    if i < |s| {
      NonEmptyFieldIffNonColon(s);
      SplitLengthAtLeast(Fields(s), 0);
    } else if s != "" {
      ColonIndexFromIsFirst(s, 0);
      assert s[0] != Colon;
    }
  }

  /**
   * What `split(":")` returns: the id itself when it holds no colon;
   * otherwise the colon-separated fields up to the last non-empty one,
   * where only empty fields are dropped. No returned field holds a colon.
   */
  lemma JavaSplitFields(s: string)
    ensures ColonIndex(s) == |s| ==> JavaSplit(s) == [s]
    ensures ColonIndex(s) < |s| ==>
      var r := JavaSplit(s);
      && |r| <= |Fields(s)| && r == Fields(s)[..|r|]
      && (|r| > 0 ==> r[|r| - 1] != "")
      && (forall k :: |r| <= k < |Fields(s)| ==> Fields(s)[k] == "")
    ensures forall j, k :: 0 <= j < |JavaSplit(s)| && 0 <= k < |JavaSplit(s)[j]| ==> JavaSplit(s)[j][k] != Colon
  {
    var r := JavaSplit(s);
    if ColonIndex(s) == |s| {
      ColonIndexFromIsFirst(s, 0);
      assert r == [s];
    } else {
      FieldsHaveNoColon(s);
      DropTrailingEmptySpec(Fields(s));
      forall j | 0 <= j < |r| ensures r[j] == Fields(s)[j] {
        DropTrailingEmptyKeeps(Fields(s), j);
      }
    }
  }

  /** Field 0 of a non-empty split is the text before the first colon. */
  lemma SplitFirstField(s: string)
    requires |JavaSplit(s)| > 0
    ensures JavaSplit(s)[0] == s[..ColonIndex(s)]
  {
    var i := ColonIndex(s);
    FirstFieldText(s, 0);
    if i < |s| {
      DropTrailingEmptyKeeps(Fields(s), 0);
    } else {
      assert s[..i] == s;
    }
  }

  /**
   * The split has a field 1 exactly when something other than colons
   * follows the first colon, and that field is the text between the first
   * colon and the next one (or the end).
   */
  lemma SplitSecondField(s: string)
    ensures var i := ColonIndex(s);
      if i < |s| && HasNonColonFrom(s, i + 1) then
        |JavaSplit(s)| >= 2 && JavaSplit(s)[1] == s[i + 1..ColonIndexFrom(s, i + 1)]
      else
        |JavaSplit(s)| < 2
  {
    var i := ColonIndex(s);
    if i < |s| {
      SplitHasSecondField(s);
      if |JavaSplit(s)| >= 2 {
        SplitSecondFieldText(s);
      }
    }
  }

  lemma SplitHasSecondField(s: string)
    requires ColonIndex(s) < |s|
    ensures |JavaSplit(s)| >= 2 <==> HasNonColonFrom(s, ColonIndex(s) + 1)
  {
    var i := ColonIndex(s);
    FieldsUnfold(s, 0);
    FieldsFromNonEmpty(s, i + 1);
    DropCons(Fields(s), s[0..i], FieldsFrom(s, i + 1), HasNonColonFrom(s, i + 1));
  }

  lemma SplitSecondFieldText(s: string)
    requires ColonIndex(s) < |s| && |JavaSplit(s)| >= 2
    ensures JavaSplit(s)[1] == s[ColonIndex(s) + 1..ColonIndexFrom(s, ColonIndex(s) + 1)]
  {
    var i := ColonIndex(s);
    FieldsUnfold(s, 0);
    FirstFieldText(s, i + 1);
    DropConsSecond(Fields(s), s[0..i], FieldsFrom(s, i + 1), s[i + 1..ColonIndexFrom(s, i + 1)]);
  }

  /** After a first field, a second one survives the drop iff a later field is non-empty. */
  lemma DropCons(fs: seq<string>, x: string, gs: seq<string>, later: bool)
    requires fs == [x] + gs && (NonEmptyFrom(gs, 0) <==> later)
    ensures |DropTrailingEmpty(fs)| >= 2 <==> later
  {
    SplitLengthAtLeast(fs, 1);
    NonEmptyCons(x, gs);
  }

  /** ... and it is the first field after the first one. */
  lemma DropConsSecond(fs: seq<string>, x: string, gs: seq<string>, second: string)
    requires fs == [x] + gs && |DropTrailingEmpty(fs)| >= 2 && gs[0] == second
    ensures DropTrailingEmpty(fs)[1] == second
  {
    DropTrailingEmptyKeeps(fs, 1);
  }

  lemma NonEmptyCons(x: string, gs: seq<string>)
    ensures NonEmptyFrom([x] + gs, 1) <==> NonEmptyFrom(gs, 0)
  {
    var fs := [x] + gs;
    if NonEmptyFrom(fs, 1) {
      var j :| 1 <= j < |fs| && |fs[j]| > 0;
      NonEmptyWitness(gs, 0, j - 1);
    }
    if NonEmptyFrom(gs, 0) {
      var j :| 0 <= j < |gs| && |gs[j]| > 0;
      NonEmptyWitness(fs, 1, j + 1);
    }
  }

  lemma DropTrailingEmptyKeeps(fs: seq<string>, k: nat)
    requires k < |DropTrailingEmpty(fs)|
    ensures DropTrailingEmpty(fs)[k] == fs[k]
  {
    DropTrailingEmptySpec(fs);
  }

  /**
   * `getVolumeIdFromTreeUri` on the tree's document id: field 0 of the
   * split, or null when the split is empty.
   */
  function VolumeId(treeDocumentId: string): (r: Option<string>)
    ensures r == None <==> treeDocumentId != "" && !HasNonColon(treeDocumentId)
    ensures r.Some? ==> r.value == treeDocumentId[..ColonIndex(treeDocumentId)]
  {
    var split := JavaSplit(treeDocumentId);
    SplitEmptyIffOnlyColons(treeDocumentId);
    if |split| > 0 then
      SplitFirstField(treeDocumentId);
      Some(split[0])
    else
      None
  }

  /**
   * `getDocumentPathFromTreeUri` on the document id: field 1 of the split
   * when there are at least two fields, else the separator alone.
   */
  function DocumentPath(documentId: string): (r: string)
    ensures var i := ColonIndex(documentId);
      if i < |documentId| && HasNonColonFrom(documentId, i + 1) then
        r == documentId[i + 1..ColonIndexFrom(documentId, i + 1)]
      else
        r == [Separator]
  {
    var split := JavaSplit(documentId);
    SplitSecondField(documentId);
    if |split| >= 2 then split[1] else [Separator]
  }

  /** Removes one trailing separator, if there is one. */
  function StripTrailingSeparator(s: string): (r: string)
    ensures EndsWith(s, [Separator]) ==> r + [Separator] == s
    ensures !EndsWith(s, [Separator]) ==> r == s
  {
    if EndsWith(s, [Separator]) then s[..|s| - 1] else s
  }

  /** The volume directory for a volume id; a missing id or an unknown volume gives null. */
  function VolumePath(volumes: map<string, string>, volumeId: Option<string>): Option<string>
  {
    if volumeId.Some? && volumeId.value in volumes then Some(volumes[volumeId.value]) else None
  }

  /**
   * The join at the end of `getFullDocIdPathFromTreeUri`: the volume
   * directory with one trailing separator removed, then, when the document
   * path is not empty once its own trailing separator is removed, a
   * separator and the document path with one leading separator removed
   * (further separators on either side of the seam stay).
   */
  function JoinPath(volumePath: string, documentPath: string): (r: string)
    ensures var volume := StripTrailingSeparator(volumePath);
      var doc := StripTrailingSeparator(documentPath);
      StartsWith(r, volume) &&
      (doc == [] ==> r == volume) &&
      (doc != [] ==>
        |r| > |volume| && r[|volume|] == Separator &&
        r[|volume| + 1..] == (if doc[0] == Separator then doc[1..] else doc))
  {
    var volume := StripTrailingSeparator(volumePath);
    var doc := StripTrailingSeparator(documentPath);
    if |doc| > 0 then
      if StartsWith(doc, [Separator]) then
        assert (volume + doc)[|volume| + 1..] == doc[1..];
        volume + doc
      else
        assert (volume + [Separator] + doc)[|volume| + 1..] == doc;
        volume + [Separator] + doc
    else volume
  }

  /**
   * `getFullDocIdPathFromTreeUri`: null for a null URI; the separator alone
   * when the volume is unknown; otherwise the volume directory joined with
   * the document path.
   */
  function FullDocIdPath(uri: Option<TreeUri>, volumes: map<string, string>): (r: Option<string>)
    ensures uri.None? <==> r.None?
    ensures uri.Some? && VolumePath(volumes, VolumeId(uri.value.treeDocumentId)).None? ==> r == Some([Separator])
    ensures uri.Some? && VolumePath(volumes, VolumeId(uri.value.treeDocumentId)).Some? ==>
      r == Some(JoinPath(VolumePath(volumes, VolumeId(uri.value.treeDocumentId)).value,
                         DocumentPath(uri.value.documentId)))
  {
    if uri.None? then None
    else
      var volumePath := VolumePath(volumes, VolumeId(uri.value.treeDocumentId));
      if volumePath.None? then Some([Separator])
      else Some(JoinPath(volumePath.value, DocumentPath(uri.value.documentId)))
  }

  /**
   * Putting the helpers together: for a volume `vol` registered at
   * directory `dir` and a relative path `p` inside it, the document id
   * `vol:p` resolves to `dir/p`.
   */
  lemma FullPathOfVolumeAndRelativePath(volumes: map<string, string>, vol: string, treeRest: string, p: string)
    requires vol in volumes && !EndsWith(volumes[vol], [Separator])
    requires |vol| > 0 && forall k :: 0 <= k < |vol| ==> vol[k] != Colon
    requires |p| > 0 && p[0] != Separator && p[|p| - 1] != Separator
    requires forall k :: 0 <= k < |p| ==> p[k] != Colon
    ensures FullDocIdPath(Some(TreeUri(vol + [Colon] + treeRest, vol + [Colon] + p)), volumes)
         == Some(volumes[vol] + [Separator] + p)
  {
    VolumeOfPrefixedId(vol, treeRest);
    PathOfPrefixedId(vol, p);
    JoinPathPlain(volumes[vol], p);
  }

  lemma JoinPathPlain(volumePath: string, p: string)
    requires !EndsWith(volumePath, [Separator])
    requires |p| > 0 && p[0] != Separator && p[|p| - 1] != Separator
    ensures JoinPath(volumePath, p) == volumePath + [Separator] + p
  {
    assert !EndsWith(p, [Separator]);
    assert !StartsWith(p, [Separator]);
  }

  /** The first colon of `vol:rest`, for a `vol` without colons, is the one after `vol`. */
  lemma ColonIndexOfPrefixed(vol: string, rest: string)
    requires forall k :: 0 <= k < |vol| ==> vol[k] != Colon
    ensures ColonIndex(vol + [Colon] + rest) == |vol|
  {
    var t := vol + [Colon] + rest;
    PrefixSearch(t, |vol|, 0);
  }

  lemma {:induction false} PrefixSearch(t: string, n: nat, k: nat)
    requires k <= n < |t| && t[n] == Colon
    requires forall m :: k <= m < n ==> t[m] != Colon
    ensures ColonIndexFrom(t, k) == n
    decreases n - k
  {
    if k < n {
      PrefixSearch(t, n, k + 1);
    }
  }

  lemma VolumeOfPrefixedId(vol: string, treeRest: string)
    requires |vol| > 0 && forall k :: 0 <= k < |vol| ==> vol[k] != Colon
    ensures VolumeId(vol + [Colon] + treeRest) == Some(vol)
  {
    var t := vol + [Colon] + treeRest;
    ColonIndexOfPrefixed(vol, treeRest);
    assert t[..|vol|] == vol;
    assert HasNonColon(t) by { assert t[0] == vol[0]; }
  }

  lemma PathOfPrefixedId(vol: string, p: string)
    requires forall k :: 0 <= k < |vol| ==> vol[k] != Colon
    requires |p| > 0 && p[0] != Colon
    requires forall k :: 0 <= k < |p| ==> p[k] != Colon
    ensures DocumentPath(vol + [Colon] + p) == p
  {
    var d := vol + [Colon] + p;
    var n := |vol| + 1;
    ColonIndexOfPrefixed(vol, p);
    assert d[n] == p[0];
    assert HasNonColonFrom(d, n);
    forall m | n <= m < |d| ensures d[m] != Colon {
      assert d[m] == p[m - n];
    }
    NoColonFrom(d, n);
    assert d[n..|d|] == p;
  }
}

=== FILE: recompress.dfy ===
/**
 * The keep/discard decision of `compressJpegFile`. Decoding, re-encoding
 * at the configured quality and the EXIF transplant are one abstract
 * codec; what the model keeps is which failures are caught, which one
 * escapes, and the strict size-ratio test.
 */
module Recompression {
  import opened Common
  import opened DocumentStore

  /** The overwrite threshold as a fraction `num / den`. */
  datatype Ratio = Ratio(num: int, den: int)

  /**
   * What the codec makes of the original bytes: re-encoded bytes with the
   * original EXIF block, an I/O error (caught by the source), or an image
   * the decoder cannot read (a null bitmap, which the source dereferences).
   */
  datatype Encoding = Encoded(bytes: Bytes) | IoFailure | Undecodable

  /** The result of `compressJpegFile`: bytes to keep, null, or an escaping exception. */
  datatype Compression = Candidate(bytes: Bytes) | NoCandidate | Crash

  /**
   * The size-ratio test `compressed / original < threshold`, written as a
   * cross-multiplication so that it needs no division.
   */
  predicate KeepRecompressed(compressedSize: nat, originalSize: nat, threshold: Ratio)
    requires threshold.den > 0
  {
    compressedSize * threshold.den < threshold.num * originalSize
  }

  /**
   * The cross-multiplied test is the ratio test: for a non-empty original
   * the bytes are kept exactly when `compressed / original` is strictly
   * below the threshold, so equality discards; an empty original (where
   * the float division gives infinity or NaN) is never replaced.
   */
  lemma KeepIffRatioBelowThreshold(compressedSize: nat, originalSize: nat, threshold: Ratio)
    requires threshold.den > 0
    ensures originalSize > 0 ==>
      (KeepRecompressed(compressedSize, originalSize, threshold) <==>
       (compressedSize as real) / (originalSize as real) < (threshold.num as real) / (threshold.den as real))
    ensures originalSize == 0 ==> !KeepRecompressed(compressedSize, originalSize, threshold)
  {
    if originalSize > 0 {
      var c, o := compressedSize as real, originalSize as real;
      var n, d := threshold.num as real, threshold.den as real;
      assert c / o * (o * d) == c * d;
      assert n / d * (o * d) == n * o;
      assert c / o < n / d <==> c / o * (o * d) < n / d * (o * d);
    }
  }

  /** Example from the configuration screen's boundary: at 0.8, exactly 80% is discarded and 79% kept. */
  lemma RatioBoundary()
    ensures !KeepRecompressed(80, 100, Ratio(8, 10))
    ensures KeepRecompressed(79, 100, Ratio(8, 10))
  {
  }

  /**
   * `compressJpegFile` on the document `name`. A missing original or an
   * I/O error gives null; an undecodable image escapes as an exception;
   * otherwise the re-encoded bytes are returned exactly when the ratio
   * test keeps them.
   */
  function CompressJpeg(s: Store, name: string, codec: Bytes -> Encoding, threshold: Ratio): (r: Compression)
    requires threshold.den > 0
    ensures r.Candidate? <==>
      name in s && codec(s[name]).Encoded? && KeepRecompressed(|codec(s[name]).bytes|, |s[name]|, threshold)
    ensures r.Candidate? ==> r.bytes == codec(s[name]).bytes
    ensures r.Crash? <==> name in s && codec(s[name]).Undecodable?
  {
    if name !in s then NoCandidate
    else
      match codec(s[name])
      case Undecodable => Crash
      case IoFailure => NoCandidate
      case Encoded(bytes) =>
        if KeepRecompressed(|bytes|, |s[name]|, threshold) then Candidate(bytes) else NoCandidate
  }
}

=== FILE: run.dfy ===
/**
 * One run of the worker (`doWork`): fix the time window, scan the tree,
 * process every selected file in scan order, then advance the persisted
 * lower bound. An exception escaping the processing of a file ends the run
 * before the bound is written.
 */
module Run {
  import opened Common
  import opened Selection
  import opened DocumentStore
  import opened Recompression
  import opened Commit
  import opened Walker
  import opened Watermark

  /** The configuration snapshot a run reads. */
  datatype Config = Config(minimum: int, rules: seq<Rule>, settings: Settings)

  /**
   * A finished run: how many files matched, the bound to persist, and
   * every directory's contents. A run a file threw out of persists no
   * bound, but the files processed before that one stay processed.
   */
  datatype RunResult = Success(count: nat, minimum: int, stores: map<string, Store>) | Failure(stores: map<string, Store>)

  /** Processing the calls: either every call finished, or call number `at` threw. */
  datatype Progress = Completed(stores: map<string, Store>) | Stopped(stores: map<string, Store>, at: nat)

  /** The contents of a directory; one the model was not given is empty. */
  function StoreOf(stores: map<string, Store>, directory: string): Store
  {
    if directory in stores then stores[directory] else map[]
  }

  predicate Untouched(calls: seq<ProcessCall>, directory: string)
  {
    forall k :: 0 <= k < |calls| ==> calls[k].directory != directory
  }

  /** Processing one file: the directory's contents before, the call and its faults give the outcome. */
  type FileStep = (Store, ProcessCall, Faults) -> FileOutcome

  /**
   * Processes the calls one after the other with `step`, the `k`-th call
   * under the faults `faults(first + k)`, each on the contents its
   * directory has at that point, and stops at the first call that throws:
   * a stop is at a call whose processing throws in the state reached.
   */
  function ProcessCalls(step: FileStep, stores: map<string, Store>, calls: seq<ProcessCall>,
                        faults: nat -> Faults, first: nat): Progress
    decreases |calls|
  {
    if calls == [] then Completed(stores)
    else
      var c := calls[0];
      match step(StoreOf(stores, c.directory), c, faults(first))
      case Crashed => Stopped(stores, 0)
      case Finished(t) =>
        match ProcessCalls(step, stores[c.directory := t], calls[1..], faults, first + 1)
        case Completed(u) => Completed(u)
        case Stopped(u, at) => Stopped(u, at + 1)
  }

  /** A stop is at one of the calls, and that call throws in the state the calls before it left. */
  lemma {:induction false} StoppedAtThrowingCall(step: FileStep, stores: map<string, Store>, calls: seq<ProcessCall>,
                                                 faults: nat -> Faults, first: nat)
    ensures var r := ProcessCalls(step, stores, calls, faults, first);
      r.Stopped? ==>
      && r.at < |calls|
      && step(StoreOf(r.stores, calls[r.at].directory), calls[r.at], faults(first + r.at)).Crashed?
    decreases |calls|
  {
    if calls != [] {
      var c := calls[0];
      match step(StoreOf(stores, c.directory), c, faults(first))
      case Crashed =>
      case Finished(t) =>
        StoppedAtThrowingCall(step, stores[c.directory := t], calls[1..], faults, first + 1);
        match ProcessCalls(step, stores[c.directory := t], calls[1..], faults, first + 1)
        case Completed(_) =>
        case Stopped(u, at) =>
          assert calls[at + 1] == calls[1..][at] && first + (at + 1) == first + 1 + at;
    }
  }

  /** A directory no call names keeps its contents, whether or not the processing stops. */
  lemma {:induction false} UntouchedDirectoriesKept(step: FileStep, stores: map<string, Store>, calls: seq<ProcessCall>,
                                                    faults: nat -> Faults, first: nat, d: string)
    requires d in stores && Untouched(calls, d)
    ensures var r := ProcessCalls(step, stores, calls, faults, first);
      d in r.stores && r.stores[d] == stores[d]
    decreases |calls|
  {
    if calls != [] {
      var c := calls[0];
      assert c.directory != d;
      match step(StoreOf(stores, c.directory), c, faults(first))
      case Crashed =>
      case Finished(t) =>
        assert Untouched(calls[1..], d) by {
          forall k | 0 <= k < |calls[1..]| ensures calls[1..][k].directory != d {
            assert calls[1..][k] == calls[k + 1];
          }
        }
        UntouchedDirectoriesKept(step, stores[c.directory := t], calls[1..], faults, first + 1, d);
    }
  }

  /** The same progress, with the index of a throwing call moved up by `n`. */
  function Shift(p: Progress, n: nat): Progress
  {
    match p
    case Completed(t) => Completed(t)
    case Stopped(t, at) => Stopped(t, n + at)
  }

  /** Unfolding the processing once, when the first call finishes. */
  lemma ProcessCallsFinishedFirst(step: FileStep, stores: map<string, Store>, calls: seq<ProcessCall>, t: Store,
                                  faults: nat -> Faults, first: nat)
    requires calls != [] && step(StoreOf(stores, calls[0].directory), calls[0], faults(first)) == Finished(t)
    ensures ProcessCalls(step, stores, calls, faults, first)
         == Shift(ProcessCalls(step, stores[calls[0].directory := t], calls[1..], faults, first + 1), 1)
  {
  }

  /**
   * The calls are processed in order, first half: when a call of `a`
   * throws, processing `a + b` stops at the same call in the same state.
   */
  lemma {:induction false} StoppedPrefixStopsAll(step: FileStep, stores: map<string, Store>, a: seq<ProcessCall>, b: seq<ProcessCall>,
                                                 faults: nat -> Faults, first: nat)
    requires ProcessCalls(step, stores, a, faults, first).Stopped?
    ensures ProcessCalls(step, stores, a + b, faults, first) == ProcessCalls(step, stores, a, faults, first)
    decreases |a|
  {
    var c := a[0];
    assert (a + b)[0] == c && (a + b)[1..] == a[1..] + b;
    var o := step(StoreOf(stores, c.directory), c, faults(first));
    if o.Finished? {
      var s1 := stores[c.directory := o.store];
      ProcessCallsFinishedFirst(step, stores, a, o.store, faults, first);
      ProcessCallsFinishedFirst(step, stores, a + b, o.store, faults, first);
      StoppedPrefixStopsAll(step, s1, a[1..], b, faults, first + 1);
    }
  }

  /**
   * The calls are processed in order, second half: when every call of `a`
   * finishes, processing `a + b` is processing `b` from the state `a`
   * left, under the faults that follow `a`'s.
   */
  lemma {:induction false} CompletedPrefixContinues(step: FileStep, stores: map<string, Store>, a: seq<ProcessCall>, b: seq<ProcessCall>,
                                                    faults: nat -> Faults, first: nat)
    requires ProcessCalls(step, stores, a, faults, first).Completed?
    ensures ProcessCalls(step, stores, a + b, faults, first)
         == Shift(ProcessCalls(step, ProcessCalls(step, stores, a, faults, first).stores, b, faults, first + |a|), |a|)
    decreases |a|
  {
    if a == [] {
      assert a + b == b;
      match ProcessCalls(step, stores, b, faults, first)
      case Completed(_) =>
      case Stopped(t, at) => assert 0 + at == at;
    } else {
      var c := a[0];
      var o := step(StoreOf(stores, c.directory), c, faults(first));
      if o.Crashed? {
        assert false;
      }
      var s1 := stores[c.directory := o.store];
      ProcessCallsFinishedFirst(step, stores, a, o.store, faults, first);
      CompletedPrefixContinues(step, s1, a[1..], b, faults, first + 1);
      CompletedPrefixStep(step, stores, a, b, o.store, faults, first);
    }
  }

  /** The inductive step of `CompletedPrefixContinues`: one more finished call in front. */
  lemma CompletedPrefixStep(step: FileStep, stores: map<string, Store>, a: seq<ProcessCall>, b: seq<ProcessCall>,
                            t: Store, faults: nat -> Faults, first: nat)
    requires a != [] && step(StoreOf(stores, a[0].directory), a[0], faults(first)) == Finished(t)
    requires ProcessCalls(step, stores[a[0].directory := t], a[1..], faults, first + 1).Completed?
    requires ProcessCalls(step, stores[a[0].directory := t], a[1..] + b, faults, first + 1)
          == Shift(ProcessCalls(step, ProcessCalls(step, stores[a[0].directory := t], a[1..], faults, first + 1).stores, b,
                                faults, first + 1 + |a[1..]|), |a[1..]|)
    ensures ProcessCalls(step, stores, a + b, faults, first)
         == Shift(ProcessCalls(step, ProcessCalls(step, stores, a, faults, first).stores, b, faults, first + |a|), |a|)
  {
    var s1 := stores[a[0].directory := t];
    assert (a + b)[0] == a[0] && (a + b)[1..] == a[1..] + b;
    ProcessCallsFinishedFirst(step, stores, a, t, faults, first);
    ProcessCallsFinishedFirst(step, stores, a + b, t, faults, first);
    var pa := ProcessCalls(step, s1, a[1..], faults, first + 1);
    var p := ProcessCalls(step, pa.stores, b, faults, first + 1 + |a[1..]|);
    assert first + 1 + |a[1..]| == first + |a|;
    ShiftTwice(p, |a[1..]|);
  }

  lemma ShiftTwice(p: Progress, n: nat)
    ensures Shift(Shift(p, n), 1) == Shift(p, n + 1)
    ensures Shift(p, n).stores == p.stores
  {
  }

  /** Two steps that agree under every fault the run can draw process every call alike. */
  lemma {:induction false} AgreeingStepsAgree(step1: FileStep, step2: FileStep, stores: map<string, Store>, calls: seq<ProcessCall>,
                                              faults: nat -> Faults, first: nat)
    requires forall s, c, k: nat :: step1(s, c, faults(k)) == step2(s, c, faults(k))
    ensures ProcessCalls(step1, stores, calls, faults, first) == ProcessCalls(step2, stores, calls, faults, first)
    decreases |calls|
  {
    if calls != [] {
      var c := calls[0];
      var o := step1(StoreOf(stores, c.directory), c, faults(first));
      assert o == step2(StoreOf(stores, c.directory), c, faults(first));
      if o.Finished? {
        AgreeingStepsAgree(step1, step2, stores[c.directory := o.store], calls[1..], faults, first + 1);
      }
    }
  }

  /**
   * One file's processing: `processFile` as written, or with the write
   * checked (`checkWrite`), as corrected.
   */
  function FileProcessing(checkWrite: bool, settings: Settings, codec: Bytes -> Encoding): FileStep
    requires settings.threshold.den > 0
  {
    (s: Store, c: ProcessCall, f: Faults) =>
      if checkWrite then ProcessFileSafe(s, c.entry.name, c.newName, c.entry.mime, settings, codec, f)
      else ProcessFile(s, c.entry.name, c.newName, c.entry.mime, settings, codec, f)
  }

  /**
   * The processing loop of a run. Directories no call names keep their
   * contents, and the run stops only at a JPEG that the decoder cannot
   * read, in the state the calls before it left.
   */
  function ProcessAll(checkWrite: bool, stores: map<string, Store>, calls: seq<ProcessCall>, settings: Settings,
                      codec: Bytes -> Encoding, faults: nat -> Faults): (r: Progress)
    requires settings.threshold.den > 0
    ensures forall d {:trigger Untouched(calls, d)} :: d in stores && Untouched(calls, d) ==> d in r.stores && r.stores[d] == stores[d]
    ensures r.Stopped? ==> r.at < |calls|
    ensures r.Stopped? && r.at < |calls| ==>
      var c := calls[r.at];
      && c.entry.mime == JpegMime
      && c.entry.name in StoreOf(r.stores, c.directory)
      && codec(StoreOf(r.stores, c.directory)[c.entry.name]).Undecodable?
  {
    var r := ProcessCalls(FileProcessing(checkWrite, settings, codec), stores, calls, faults, 0);
    assert forall d {:trigger Untouched(calls, d)} :: d in stores && Untouched(calls, d) ==> d in r.stores && r.stores[d] == stores[d] by {
      forall d | d in stores && Untouched(calls, d) ensures d in r.stores && r.stores[d] == stores[d] {
        UntouchedDirectoriesKept(FileProcessing(checkWrite, settings, codec), stores, calls, faults, 0, d);
      }
    }
    StoppedAtThrowingCall(FileProcessing(checkWrite, settings, codec), stores, calls, faults, 0);
    if r.Stopped? then
      var c := calls[r.at];
      assert FileProcessing(checkWrite, settings, codec)(StoreOf(r.stores, c.directory), c, faults(0 + r.at)).Crashed?;
      r
    else r
  }

  /** Whether no call processes the file `name` of directory `d`. */
  predicate NotCalled(calls: seq<ProcessCall>, d: string, name: string)
  {
    forall k :: 0 <= k < |calls| ==> calls[k].directory != d || calls[k].entry.name != name
  }

  /**
   * A file no call processes keeps its bytes under its name, whatever the
   * calls for other files of its directory do and whether or not the
   * processing stops.
   */
  lemma {:induction false} OtherFilesKept(checkWrite: bool, settings: Settings, codec: Bytes -> Encoding,
                                          stores: map<string, Store>, calls: seq<ProcessCall>, faults: nat -> Faults,
                                          first: nat, d: string, y: string)
    requires settings.threshold.den > 0
    requires d in stores && y in stores[d] && NotCalled(calls, d, y)
    ensures var r := ProcessCalls(FileProcessing(checkWrite, settings, codec), stores, calls, faults, first);
      d in r.stores && Holds(r.stores[d], y, stores[d][y])
    decreases |calls|
  {
    if calls != [] {
      var step := FileProcessing(checkWrite, settings, codec);
      var c := calls[0];
      assert c.directory != d || c.entry.name != y;
      match step(StoreOf(stores, c.directory), c, faults(first))
      case Crashed =>
      case Finished(t) =>
        var next := stores[c.directory := t];
        if c.directory == d {
          if checkWrite {
            ProcessFileSafeLeavesOthers(stores[d], c.entry.name, c.newName, c.entry.mime, settings, codec, faults(first), y);
          } else {
            ProcessFileLeavesOthers(stores[d], c.entry.name, c.newName, c.entry.mime, settings, codec, faults(first), y);
          }
        }
        assert d in next && Holds(next[d], y, stores[d][y]);
        assert NotCalled(calls[1..], d, y) by {
          forall k | 0 <= k < |calls[1..]| ensures calls[1..][k].directory != d || calls[1..][k].entry.name != y {
            assert calls[1..][k] == calls[k + 1];
          }
        }
        OtherFilesKept(checkWrite, settings, codec, next, calls[1..], faults, first + 1, d, y);
    }
  }

  /**
   * Over a whole run: every file of every directory that no call
   * processes keeps its bytes under its name, as written and as corrected.
   */
  lemma RunKeepsUnselectedFiles(checkWrite: bool, stores: map<string, Store>, calls: seq<ProcessCall>, settings: Settings,
                                codec: Bytes -> Encoding, faults: nat -> Faults, d: string, y: string)
    requires settings.threshold.den > 0
    requires d in stores && y in stores[d] && NotCalled(calls, d, y)
    ensures var r := ProcessAll(checkWrite, stores, calls, settings, codec, faults);
      d in r.stores && Holds(r.stores[d], y, stores[d][y])
  {
    OtherFilesKept(checkWrite, settings, codec, stores, calls, faults, 0, d, y);
  }

  /**
   * The corrected run and the run as written differ only through failed
   * writes: when no write fails, they process every call alike.
   */
  lemma CheckedWriteAgreesWithoutWriteFaults(stores: map<string, Store>, calls: seq<ProcessCall>, settings: Settings,
                                             codec: Bytes -> Encoding, faults: nat -> Faults)
    requires settings.threshold.den > 0
    requires forall k: nat :: faults(k).write.None?
    ensures ProcessAll(true, stores, calls, settings, codec, faults) == ProcessAll(false, stores, calls, settings, codec, faults)
  {
    AgreeingStepsAgree(FileProcessing(true, settings, codec), FileProcessing(false, settings, codec), stores, calls, faults, 0);
  }

  /** The calls the scan of a run makes: every matched file, in breadth-first order. */
  function Selected(root: Node, config: Config, clockAtStart: int, lag: int): seq<ProcessCall>
    requires lag > 0
  {
    ScanAll(LevelOrder([root]), Window(config.minimum, MaximumTimestamp(clockAtStart, lag)), config.rules)
  }

  /**
   * The run. The window's upper bound is taken `lag` before the clock at
   * the start, the new lower bound from the clock at the end. The run
   * succeeds exactly when no file throws; it then reports one count per
   * matched file and persists the larger of the old bound and `clock -
   * day`. With `checkWrite` false every file goes through `processFile`
   * as written, with it true through the corrected version.
   */
  method DoWork(checkWrite: bool, root: Node, stores: map<string, Store>, config: Config,
                clockAtStart: int, clockAtEnd: int, lag: int, day: int,
                codec: Bytes -> Encoding, faults: nat -> Faults) returns (r: RunResult)
    requires lag > 0 && config.settings.threshold.den > 0
    ensures r.Success? <==>
      ProcessAll(checkWrite, stores, Selected(root, config, clockAtStart, lag), config.settings, codec, faults).Completed?
    ensures r.stores == ProcessAll(checkWrite, stores, Selected(root, config, clockAtStart, lag), config.settings, codec, faults).stores
    ensures r.Success? ==> r.count == |Selected(root, config, clockAtStart, lag)|
    ensures r.Success? ==> r.minimum == NextMinimum(clockAtEnd, day, config.minimum)
    ensures r.Success? ==> r.minimum >= config.minimum && r.minimum >= clockAtEnd - day
  {
    var w := Window(config.minimum, MaximumTimestamp(clockAtStart, lag));
    var count, calls := Walk(root, w, config.rules);
    var processed := ProcessAll(checkWrite, stores, calls, config.settings, codec, faults);
    if processed.Stopped? {
      return Failure(processed.stores);
    }
    r := Success(count, NextMinimum(clockAtEnd, day, config.minimum), processed.stores);
  }
}

=== FILE: selection.dfy ===
/**
 * How one child of a listed directory is classified during the scan:
 * directories are enqueued; files outside the time window or carrying one
 * of the worker's own reserved suffixes are skipped; otherwise the first
 * rule whose pattern fully matches the name selects the file, and the new
 * name is the rule's prefix followed by the old name.
 */
module Selection {
  import opened Common

  /** The MIME type the document provider gives to directories. */
  const DirectoryMime: string := "vnd.android.document/directory"
  const JpegMime: string := "image/jpeg"

  /** Suffix of the recompressed file while it waits to be renamed. */
  const TempSuffix: string := "_automediarename_temp.jpg"
  /** Suffix the original takes while the recompressed file replaces it. */
  const BackupSuffix: string := "_automediarename_backup.jpg"

  /** One row of a directory listing: the four columns the scan asks for. */
  datatype Entry = Entry(id: string, name: string, mime: string, lastModified: int)

  /**
   * A rename rule. `pattern(name)` stands for a full match of the rule's
   * regular expression against the file name.
   */
  datatype Rule = Rule(pattern: string -> bool, prefix: string)

  /** The inclusive bounds on a file's last-modified time, in milliseconds. */
  datatype Window = Window(minimum: int, maximum: int)

  /** What the scan does with one child. */
  datatype Decision =
    | Enqueue
    | TooOld
    | TooRecent
    | Reserved
    | NoRuleMatched
    | Matched(rule: nat, newName: string)

  predicate IsDirectory(e: Entry)
  {
    e.mime == DirectoryMime
  }

  predicate InWindow(e: Entry, w: Window)
  {
    w.minimum <= e.lastModified <= w.maximum
  }

  /** Names the worker creates for its own intermediate files. */
  predicate HasReservedSuffix(name: string)
  {
    EndsWith(name, TempSuffix) || EndsWith(name, BackupSuffix)
  }

  /** The index of the first rule whose pattern matches `name`, if any. */
  function FirstMatch(rules: seq<Rule>, name: string): (r: Option<nat>)
    ensures r.Some? ==> r.value < |rules| && rules[r.value].pattern(name)
    ensures r.Some? ==> forall j :: 0 <= j < r.value ==> !rules[j].pattern(name)
    ensures r.None? ==> forall j :: 0 <= j < |rules| ==> !rules[j].pattern(name)
  {
    if |rules| == 0 then None
    else if rules[0].pattern(name) then Some(0)
    else
      match FirstMatch(rules[1..], name)
      case None => None
      case Some(i) => Some(i + 1)
  }

  /**
   * The scan's decision for one child, the checks taken in the source's
   * order. A directory is enqueued whatever its time stamp and name. A file
   * is selected exactly when its time is inside the window (both ends
   * included), its name carries no reserved suffix and some rule matches;
   * the rule applied is then the first that matches, and the new name is
   * that rule's prefix before the old name.
   */
  function Classify(e: Entry, w: Window, rules: seq<Rule>): (d: Decision)
    ensures d == Enqueue <==> IsDirectory(e)
    ensures d.Matched? <==>
      && !IsDirectory(e)
      && InWindow(e, w)
      && !HasReservedSuffix(e.name)
      && (exists j :: 0 <= j < |rules| && rules[j].pattern(e.name))
    ensures d.Matched? ==>
      && d.rule < |rules| && rules[d.rule].pattern(e.name)
      && (forall j :: 0 <= j < d.rule ==> !rules[j].pattern(e.name))
      && d.newName == rules[d.rule].prefix + e.name
  {
    if IsDirectory(e) then Enqueue
    else if e.lastModified < w.minimum then TooOld
    else if e.lastModified > w.maximum then TooRecent
    else if HasReservedSuffix(e.name) then Reserved
    else
      match FirstMatch(rules, e.name)
      case None => NoRuleMatched
      case Some(i) => Matched(i, rules[i].prefix + e.name)
  }

  /**
   * The temporary and backup files the worker makes from a name never
   * pass the guard, so later runs never pick them up.
   */
  lemma OwnArtifactsNeverSelected(e: Entry, w: Window, rules: seq<Rule>, original: string)
    requires e.name == original + TempSuffix || e.name == original + BackupSuffix
    ensures !Classify(e, w, rules).Matched?
  {
    if e.name == original + TempSuffix {
      EndsWithAppended(original, TempSuffix);
    } else {
      EndsWithAppended(original, BackupSuffix);
    }
  }
}

=== FILE: store.dfy ===
/**
 * The document-store calls `processFile` makes, on the contents of one
 * directory: a map from display name to bytes. Every call may fail; a
 * failing call leaves the directory as it was. The provider never
 * overwrites an existing entry: a create or a rename onto a name that is
 * taken lands on a fresh name instead, and the caller learns that name.
 */
module DocumentStore {
  import opened Common

  type Store = map<string, Bytes>

  /** The result of a call that yields a name: the new directory contents and the name used. */
  datatype Step = Done(store: Store, name: string) | Failed

  /**
   * A name not in `taken`: `n` itself when it is free, otherwise a longer
   * name starting with `n`. The provider's exact numbering is not modelled.
   */
  function FreshName(taken: set<string>, n: string): (r: string)
    ensures r !in taken
    ensures n !in taken ==> r == n
    ensures n <= r
    decreases |taken|
  {
    if n !in taken then n
    else
      var r := FreshName(taken - {n}, n + "+");
      assert n <= n + "+" <= r;
      r
  }

  /** Whether `s` and `t` agree on every name other than the ones in `except`. */
  ghost predicate SameElsewhere(s: Store, t: Store, except: set<string>)
  {
    forall k :: k !in except ==> (k in s <==> k in t) && (k in s ==> s[k] == t[k])
  }

  /**
   * `renameDocument`: fails when `from` is not there or the provider
   * reports an error; otherwise the bytes of `from` move to `to`, or to a
   * fresh name when `to` is taken by another entry.
   */
  function Rename(s: Store, from: string, to: string, fails: bool): (r: Step)
    ensures r.Done? <==> from in s && !fails
    ensures r.Done? ==>
      && r.name in r.store && r.store[r.name] == s[from]
      && (r.name == from || from !in r.store)
      && (r.name != from ==> r.name !in s)
      && (to != from ==> r.name != from)
      && (to !in s || to == from ==> r.name == to)
      && SameElsewhere(s, r.store, {from, r.name})
  {
    if from !in s || fails then Failed
    else
      var actual := if to == from then to else FreshName(s.Keys, to);
      Done((s - {from})[actual := s[from]], actual)
  }

  /** `deleteDocument`: fails when the entry is not there or the provider reports an error. */
  function Delete(s: Store, n: string, fails: bool): (r: Option<Store>)
    ensures r.Some? <==> n in s && !fails
    ensures r.Some? ==> n !in r.value && SameElsewhere(s, r.value, {n})
  {
    if n !in s || fails then None else Some(s - {n})
  }

  /**
   * `createDocument` followed by writing `bytes` to the new document. The
   * document is created empty under `n` or a fresh name; a write that
   * fails after `k` bytes (`writeFault == Some(k)`) leaves at most those
   * bytes in it, but the document stays.
   */
  function CreateAndWrite(s: Store, n: string, bytes: Bytes, createFails: bool, writeFault: Option<nat>): (r: Step)
    ensures r.Done? <==> !createFails
    ensures r.Done? ==> r.name !in s && r.name in r.store && (n !in s ==> r.name == n)
    ensures r.Done? && writeFault.None? ==> r.store[r.name] == bytes
    ensures r.Done? && writeFault.Some? ==> r.store[r.name] <= bytes && |r.store[r.name]| <= writeFault.value
    ensures r.Done? ==> SameElsewhere(s, r.store, {r.name})
  {
    if createFails then Failed
    else
      var actual := FreshName(s.Keys, n);
      var content := match writeFault
        case None => bytes
        case Some(k) => if k < |bytes| then bytes[..k] else bytes;
      Done(s[actual := content], actual)
  }
}

=== FILE: walker.dfy ===
/**
 * The scan of `traverseDirectoryEntries`: a breadth-first walk of the
 * document tree driven by an explicit first-in first-out worklist of
 * directories. Every child of a listed directory is classified; matching
 * files become calls of the per-file processing, in the order the walk
 * meets them, and the scan returns how many there were.
 */
module Walker {
  import opened Selection

  /**
   * A snapshot of the document tree: a listing row and, for a directory,
   * the rows of its children in the order the provider lists them.
   */
  datatype Node = Node(entry: Entry, children: seq<Node>)

  /** One call of the per-file processing: the listed directory, the file's row, the rule and the new name. */
  datatype ProcessCall = ProcessCall(directory: string, entry: Entry, rule: nat, newName: string)

  /** Number of nodes in a forest, counting every descendant. */
  function Size(s: seq<Node>): nat
    decreases s
  {
    if s == [] then 0
    else
      assert s[0] in s;
      1 + Size(s[0].children) + Size(s[1..])
  }

  lemma {:induction false} SizeAppend(a: seq<Node>, b: seq<Node>)
    ensures Size(a + b) == Size(a) + Size(b)
    decreases |a|
  {
    if a != [] {
      assert (a + b)[0] == a[0];
      assert (a + b)[1..] == a[1..] + b;
      SizeAppend(a[1..], b);
      assert Size(a + b) == 1 + Size(a[0].children) + Size(a[1..] + b);
    } else {
      assert a + b == b;
    }
  }

  /** The children that are directories, in listing order. */
  function SubDirectories(cs: seq<Node>): (r: seq<Node>)
    ensures forall n :: n in r <==> n in cs && IsDirectory(n.entry)
  {
    if cs == [] then []
    else
      var last := cs[|cs| - 1];
      assert cs == cs[..|cs| - 1] + [last];
      SubDirectories(cs[..|cs| - 1]) + (if IsDirectory(last.entry) then [last] else [])
  }

  lemma {:induction false} SizeOfSubDirectories(cs: seq<Node>)
    ensures Size(SubDirectories(cs)) <= Size(cs)
    decreases |cs|
  {
    if cs != [] {
      var init, last := cs[..|cs| - 1], cs[|cs| - 1];
      assert cs == init + [last];
      SizeOfSubDirectories(init);
      SizeAppend(init, [last]);
      SizeAppend(SubDirectories(init), if IsDirectory(last.entry) then [last] else []);
    }
  }

  /** The next level down: the sub-directories of every node of `level`, in order. */
  function NextLevel(level: seq<Node>): seq<Node>
  {
    if level == [] then [] else SubDirectories(level[0].children) + NextLevel(level[1..])
  }

  lemma {:induction false} SizeOfNextLevel(level: seq<Node>)
    ensures Size(NextLevel(level)) + |level| <= Size(level)
    decreases |level|
  {
    if level != [] {
      SizeOfNextLevel(level[1..]);
      SizeOfSubDirectories(level[0].children);
      SizeAppend(SubDirectories(level[0].children), NextLevel(level[1..]));
    }
  }

  /**
   * Reference order of a breadth-first walk, level by level: the nodes of
   * `level`, then those of the level below, and so on.
   */
  function LevelOrder(level: seq<Node>): seq<Node>
    decreases Size(level)
  {
    if level == [] then []
    else
      SizeOfNextLevel(level);
      level + LevelOrder(NextLevel(level))
  }

  /** The order in which a worklist that starts as `queue` lists directories. */
  function WorklistOrder(queue: seq<Node>): seq<Node>
    decreases Size(queue)
  {
    if queue == [] then []
    else
      var rest := queue[1..] + SubDirectories(queue[0].children);
      SizeAppend(queue[1..], SubDirectories(queue[0].children));
      SizeOfSubDirectories(queue[0].children);
      [queue[0]] + WorklistOrder(rest)
  }

  /**
   * Draining the nodes `front` of a worklist puts their sub-directories
   * behind whatever was already waiting.
   */
  lemma {:induction false} WorklistDrainsFront(front: seq<Node>, waiting: seq<Node>)
    ensures WorklistOrder(front + waiting) == front + WorklistOrder(waiting + NextLevel(front))
    decreases |front|
  {
    if front != [] {
      var x := front[0];
      assert (front + waiting)[0] == x;
      assert (front + waiting)[1..] == front[1..] + waiting;
      calc {
        WorklistOrder(front + waiting);
        [x] + WorklistOrder(front[1..] + waiting + SubDirectories(x.children));
        { assert front[1..] + waiting + SubDirectories(x.children)
              == front[1..] + (waiting + SubDirectories(x.children)); }
        [x] + WorklistOrder(front[1..] + (waiting + SubDirectories(x.children)));
        { WorklistDrainsFront(front[1..], waiting + SubDirectories(x.children)); }
        [x] + (front[1..] + WorklistOrder(waiting + SubDirectories(x.children) + NextLevel(front[1..])));
        { assert waiting + SubDirectories(x.children) + NextLevel(front[1..])
              == waiting + NextLevel(front); }
        [x] + (front[1..] + WorklistOrder(waiting + NextLevel(front)));
        { assert [x] + front[1..] == front; }
        front + WorklistOrder(waiting + NextLevel(front));
      }
    } else {
      assert front + waiting == waiting;
      assert NextLevel(front) == [];
      assert waiting + NextLevel(front) == waiting;
      assert front + WorklistOrder(waiting) == WorklistOrder(waiting);
    }
  }

  /** The worklist visits directories in level order: breadth first. */
  lemma {:induction false} WorklistIsLevelOrder(level: seq<Node>)
    ensures WorklistOrder(level) == LevelOrder(level)
    decreases Size(level)
  {
    if level != [] {
      WorklistDrainsFront(level, []);
      assert [] + NextLevel(level) == NextLevel(level);
      assert level + [] == level;
      SizeOfNextLevel(level);
      WorklistIsLevelOrder(NextLevel(level));
    }
  }

  lemma {:induction false} SubDirectoryInNextLevel(level: seq<Node>, k: nat, c: Node)
    requires k < |level| && c in SubDirectories(level[k].children)
    ensures c in NextLevel(level)
    decreases |level|
  {
    if k > 0 {
      SubDirectoryInNextLevel(level[1..], k - 1, c);
    }
  }

  /**
   * Every directory found under a listed directory is listed in turn,
   * whatever its time stamp or name.
   */
  lemma {:induction false} LevelOrderClosed(level: seq<Node>, n: Node, c: Node)
    requires n in LevelOrder(level)
    requires c in n.children && IsDirectory(c.entry)
    ensures c in LevelOrder(level)
    decreases Size(level)
  {
    var next := NextLevel(level);
    SizeOfNextLevel(level);
    assert LevelOrder(level) == level + LevelOrder(next);
    if n in level {
      var k :| 0 <= k < |level| && level[k] == n;
      SubDirectoryInNextLevel(level, k, c);
      assert LevelOrder(next) == next + LevelOrder(NextLevel(next)) by {
        SizeOfNextLevel(next);
      }
    } else {
      LevelOrderClosed(next, n, c);
    }
  }

  /** The children that are selected, in listing order. */
  function MatchedChildren(cs: seq<Node>, w: Window, rules: seq<Rule>): (r: seq<Node>)
    ensures |r| <= |cs|
  {
    if cs == [] then []
    else (if Classify(cs[0].entry, w, rules).Matched? then [cs[0]] else []) + MatchedChildren(cs[1..], w, rules)
  }

  /** The selected children are exactly the children that are selected. */
  lemma {:induction false} MatchedChildrenMembers(cs: seq<Node>, w: Window, rules: seq<Rule>)
    ensures forall n :: n in MatchedChildren(cs, w, rules) <==> n in cs && Classify(n.entry, w, rules).Matched?
    decreases |cs|
  {
    if cs != [] {
      MatchedChildrenMembers(cs[1..], w, rules);
      assert forall n :: n in cs <==> n == cs[0] || n in cs[1..];
    }
  }

  lemma {:induction false} MatchedChildrenAppend(cs: seq<Node>, x: Node, w: Window, rules: seq<Rule>)
    ensures MatchedChildren(cs + [x], w, rules)
         == MatchedChildren(cs, w, rules) + (if Classify(x.entry, w, rules).Matched? then [x] else [])
    decreases |cs|
  {
    if cs == [] {
      assert [] + [x] == [x] && [x][1..] == [];
    } else {
      var head := if Classify(cs[0].entry, w, rules).Matched? then [cs[0]] else [];
      var tail := if Classify(x.entry, w, rules).Matched? then [x] else [];
      assert (cs + [x])[0] == cs[0] && (cs + [x])[1..] == cs[1..] + [x];
      MatchedChildrenAppend(cs[1..], x, w, rules);
      assert MatchedChildren(cs + [x], w, rules) == head + (MatchedChildren(cs[1..], w, rules) + tail);
      assert head + (MatchedChildren(cs[1..], w, rules) + tail) == (head + MatchedChildren(cs[1..], w, rules)) + tail;
    }
  }

  /** The processing calls the children of one directory produce, in listing order. */
  function ScanChildren(directory: string, cs: seq<Node>, w: Window, rules: seq<Rule>): (r: seq<ProcessCall>)
    ensures |r| <= |cs|
    ensures forall k :: 0 <= k < |r| ==>
      r[k].directory == directory &&
      Classify(r[k].entry, w, rules) == Matched(r[k].rule, r[k].newName)
    ensures forall k :: 0 <= k < |r| ==> exists c :: c in cs && c.entry == r[k].entry
  {
    if cs == [] then []
    else
      var init, last := cs[..|cs| - 1], cs[|cs| - 1];
      var r0 := ScanChildren(directory, init, w, rules);
      match Classify(last.entry, w, rules)
      case Matched(i, n) => r0 + [ProcessCall(directory, last.entry, i, n)]
      case _ => r0
  }

  /**
   * One call per selected child, in listing order: the `k`-th call is for
   * the `k`-th selected child, so the count of calls is the number of
   * selected children.
   */
  lemma {:induction false} ScanChildrenFollowsListing(directory: string, cs: seq<Node>, w: Window, rules: seq<Rule>)
    ensures |ScanChildren(directory, cs, w, rules)| == |MatchedChildren(cs, w, rules)|
    ensures forall k :: 0 <= k < |ScanChildren(directory, cs, w, rules)| ==>
      ScanChildren(directory, cs, w, rules)[k].entry == MatchedChildren(cs, w, rules)[k].entry
    decreases |cs|
  {
    if cs != [] {
      var init, last := cs[..|cs| - 1], cs[|cs| - 1];
      assert cs == init + [last];
      MatchedChildrenAppend(init, last, w, rules);
      ScanChildrenFollowsListing(directory, init, w, rules);
      var calls, matched := ScanChildren(directory, init, w, rules), MatchedChildren(init, w, rules);
      match Classify(last.entry, w, rules)
      case Matched(i, n) =>
        SameEntriesAppend(calls, matched, ProcessCall(directory, last.entry, i, n), last);
      case _ =>
    }
  }

  lemma SameEntriesAppend(calls: seq<ProcessCall>, nodes: seq<Node>, c: ProcessCall, n: Node)
    requires |calls| == |nodes| && forall k :: 0 <= k < |calls| ==> calls[k].entry == nodes[k].entry
    requires c.entry == n.entry
    ensures |calls + [c]| == |nodes + [n]|
    ensures forall k :: 0 <= k < |calls + [c]| ==> (calls + [c])[k].entry == (nodes + [n])[k].entry
  {
  }

  /** Whether some call in `calls` processes the file of row `e`. */
  predicate Processes(calls: seq<ProcessCall>, e: Entry)
  {
    exists k :: 0 <= k < |calls| && calls[k].entry == e
  }

  /**
   * Nothing is missed and nothing is invented: a row gets a processing
   * call exactly when it is one of the children and it is selected.
   */
  lemma ScanChildrenComplete(directory: string, cs: seq<Node>, w: Window, rules: seq<Rule>, e: Entry)
    ensures Processes(ScanChildren(directory, cs, w, rules), e)
        <==> exists c :: c in cs && c.entry == e && Classify(e, w, rules).Matched?
  {
    if Processes(ScanChildren(directory, cs, w, rules), e) {
      ProcessedIsMatched(directory, cs, w, rules, e);
    }
    if exists c :: c in cs && c.entry == e && Classify(e, w, rules).Matched? {
      var c :| c in cs && c.entry == e && Classify(e, w, rules).Matched?;
      MatchedIsProcessed(directory, cs, w, rules, c);
    }
  }

  lemma ProcessedIsMatched(directory: string, cs: seq<Node>, w: Window, rules: seq<Rule>, e: Entry)
    requires Processes(ScanChildren(directory, cs, w, rules), e)
    ensures exists c :: c in cs && c.entry == e && Classify(e, w, rules).Matched?
  {
    var r := ScanChildren(directory, cs, w, rules);
    var m := MatchedChildren(cs, w, rules);
    ScanChildrenFollowsListing(directory, cs, w, rules);
    MatchedChildrenMembers(cs, w, rules);
    var k :| 0 <= k < |r| && r[k].entry == e;
    assert m[k] in m && m[k].entry == e;
  }

  lemma MatchedIsProcessed(directory: string, cs: seq<Node>, w: Window, rules: seq<Rule>, c: Node)
    requires c in cs && Classify(c.entry, w, rules).Matched?
    ensures Processes(ScanChildren(directory, cs, w, rules), c.entry)
  {
    var r := ScanChildren(directory, cs, w, rules);
    var m := MatchedChildren(cs, w, rules);
    ScanChildrenFollowsListing(directory, cs, w, rules);
    MatchedChildrenMembers(cs, w, rules);
    assert c in m;
    var k :| 0 <= k < |m| && m[k] == c;
    assert r[k].entry == c.entry;
  }

  /** The processing calls of a sequence of listed directories, one directory after another. */
  function ScanAll(dirs: seq<Node>, w: Window, rules: seq<Rule>): seq<ProcessCall>
  {
    if dirs == [] then []
    else
      var last := dirs[|dirs| - 1];
      ScanAll(dirs[..|dirs| - 1], w, rules) + ScanChildren(last.entry.id, last.children, w, rules)
  }

  /** The call, if any, that one child adds to its directory's calls. */
  function CallFor(directory: string, child: Node, w: Window, rules: seq<Rule>): seq<ProcessCall>
  {
    match Classify(child.entry, w, rules)
    case Matched(i, n) => [ProcessCall(directory, child.entry, i, n)]
    case _ => []
  }

  lemma ListingGrows(directory: string, cs: seq<Node>, child: Node, w: Window, rules: seq<Rule>)
    ensures SubDirectories(cs + [child])
         == SubDirectories(cs) + (if IsDirectory(child.entry) then [child] else [])
    ensures ScanChildren(directory, cs + [child], w, rules)
         == ScanChildren(directory, cs, w, rules) + CallFor(directory, child, w, rules)
  {
    assert (cs + [child])[..|cs|] == cs;
  }

  /** One more child of the listing: a directory joins the worklist, anything else may add a call. */
  lemma ListingPrefixGrows(directory: string, cs: seq<Node>, i: nat, w: Window, rules: seq<Rule>)
    requires i < |cs|
    ensures SubDirectories(cs[..i + 1])
         == if IsDirectory(cs[i].entry) then SubDirectories(cs[..i]) + [cs[i]] else SubDirectories(cs[..i])
    ensures ScanChildren(directory, cs[..i + 1], w, rules)
         == if IsDirectory(cs[i].entry) then ScanChildren(directory, cs[..i], w, rules)
            else ScanChildren(directory, cs[..i], w, rules) + CallFor(directory, cs[i], w, rules)
  {
    assert cs[..i + 1] == cs[..i] + [cs[i]];
    ListingGrows(directory, cs[..i], cs[i], w, rules);
  }

  lemma WorklistStep(queue: seq<Node>)
    requires queue != []
    ensures WorklistOrder(queue) == [queue[0]] + WorklistOrder(queue[1..] + SubDirectories(queue[0].children))
  {
  }

  lemma ScanAllGrows(listed: seq<Node>, dir: Node, w: Window, rules: seq<Rule>)
    ensures ScanAll(listed + [dir], w, rules) == ScanAll(listed, w, rules) + ScanChildren(dir.entry.id, dir.children, w, rules)
  {
    assert (listed + [dir])[..|listed|] == listed;
  }

  /** One iteration of the scan keeps its invariant and shrinks the worklist. */
  lemma WalkStep(root: Node, listed: seq<Node>, queue: seq<Node>, w: Window, rules: seq<Rule>)
    requires queue != []
    requires listed + WorklistOrder(queue) == WorklistOrder([root])
    ensures var next := queue[1..] + SubDirectories(queue[0].children);
      && (listed + [queue[0]]) + WorklistOrder(next) == WorklistOrder([root])
      && Size(next) < Size(queue)
    ensures ScanAll(listed + [queue[0]], w, rules)
         == ScanAll(listed, w, rules) + ScanChildren(queue[0].entry.id, queue[0].children, w, rules)
  {
    var dir, waiting := queue[0], queue[1..];
    WorklistStep(queue);
    assert (listed + [dir]) + WorklistOrder(waiting + SubDirectories(dir.children)) == listed + WorklistOrder(queue);
    ScanAllGrows(listed, dir, w, rules);
    SizeAppend(waiting, SubDirectories(dir.children));
    SizeOfSubDirectories(dir.children);
    assert Size(queue) == 1 + Size(dir.children) + Size(waiting);
  }

  /**
   * One pass over the cursor of a directory listing: sub-directories are
   * collected for the worklist, matching files become processing calls,
   * everything else is skipped.
   */
  method ListDirectory(dir: Node, w: Window, rules: seq<Rule>) returns (subdirs: seq<Node>, calls: seq<ProcessCall>)
    ensures subdirs == SubDirectories(dir.children)
    ensures calls == ScanChildren(dir.entry.id, dir.children, w, rules)
  {
    subdirs, calls := [], [];
    var i := 0;
    while i < |dir.children|
      invariant 0 <= i <= |dir.children|
      invariant subdirs == SubDirectories(dir.children[..i])
      invariant calls == ScanChildren(dir.entry.id, dir.children[..i], w, rules)
    {
      var child := dir.children[i];
      ListingPrefixGrows(dir.entry.id, dir.children, i, w, rules);
      if IsDirectory(child.entry) {
        subdirs := subdirs + [child];
      } else {
        calls := calls + CallFor(dir.entry.id, child, w, rules);
      }
      i := i + 1;
    }
    assert dir.children[..i] == dir.children;
  }

  /**
   * The scan. Directories are taken from the front of the worklist and
   * their sub-directories appended at the back, so directories are listed
   * in level order; `calls` are the processing calls in the order they are
   * made and `count` is their number, whatever the processing does.
   */
  method Walk(root: Node, w: Window, rules: seq<Rule>) returns (count: nat, calls: seq<ProcessCall>)
    ensures calls == ScanAll(LevelOrder([root]), w, rules)
    ensures count == |calls|
  {
    var queue := [root];
    ghost var listed: seq<Node> := [];
    count, calls := 0, [];
    while queue != []
      invariant listed + WorklistOrder(queue) == WorklistOrder([root])
      invariant calls == ScanAll(listed, w, rules)
      invariant count == |calls|
      decreases Size(queue)
    {
      var dir := queue[0];
      var waiting := queue[1..];
      var subdirs, found := ListDirectory(dir, w, rules);
      WalkStep(root, listed, queue, w, rules);
      queue := waiting + subdirs;
      calls := calls + found;
      count := count + |found|;
      listed := listed + [dir];
    }
    assert listed + [] == listed;
    WorklistIsLevelOrder([root]);
  }
}

=== FILE: watermark.dfy ===
/**
 * The time window of `doWork`: the upper bound lies a fixed lag before the
 * clock at the start of the run, and at the end of the run the persisted
 * lower bound moves up to one day before the clock, never down.
 */
module Watermark {
  import opened Common

  /** The upper bound of the window: `lag` (ten minutes) before `now`. */
  function MaximumTimestamp(now: int, lag: int): (r: int)
    requires lag > 0
    ensures r < now
    ensures now - r == lag
  {
    now - lag
  }

  /**
   * The lower bound for the next run: one `day` before `now`, unless the
   * previous bound is already later.
   */
  function NextMinimum(now: int, day: int, previous: int): (r: int)
    ensures r >= previous && r >= now - day
    ensures r == previous || r == now - day
  {
    Max(now - day, previous)
  }

  /**
   * Successive runs never move the bound down, and a later run makes an
   * earlier one's update irrelevant: two runs at `t1 <= t2` leave the same
   * bound as the second alone.
   */
  lemma SuccessiveRuns(previous: int, t1: int, t2: int, day: int)
    requires t1 <= t2
    ensures NextMinimum(t1, day, previous) <= NextMinimum(t2, day, NextMinimum(t1, day, previous))
    ensures NextMinimum(t2, day, NextMinimum(t1, day, previous)) == NextMinimum(t2, day, previous)
  {
  }

  /**
   * A file skipped as too recent is still inside the next run's lower
   * bound, provided the run took no longer than a day minus the lag.
   */
  lemma TooRecentIsNotLost(previous: int, start: int, end: int, lag: int, day: int, lastModified: int)
    requires lag > 0 && start <= end && end - start <= day - lag
    requires previous <= lastModified && lastModified > MaximumTimestamp(start, lag)
    ensures NextMinimum(end, day, previous) <= lastModified
  {
  }
}
